=== FILE: README.md ===
# X11 / XVideo video output driver — a Dafny model

This project models the video output driver of `plugins/x11/xcommon.c`.
The one source file builds two drivers: the plain X11 driver, which draws
16-bit RGB pictures into XImages, and the XVideo driver, which hands planar
YUV 4:2:0 pictures to a hardware-scaled overlay. The model keeps both
behind one `Variant` parameter (`X11 | XVideo`). Each `#ifdef` branch of
the source is a `match` or an `if` on that value.

Modules, following the structure of the source:

- `Common`: the build variant, the chroma codes and the compile-time
  constants.
- `Seek`: the clamped relative seek (`vout_Seek`).
- `Geometry`: the size the main window is requested at, and the scanline
  quantum of a local XImage.
- `Display`: display negotiation (`InitDisplay`). This covers
  shared-memory availability, the visual class for the screen depth, and
  bytes per pixel from the pixmap format list.
- `Resources`: every resource a picture can hold (descriptor, local data,
  image structure, SysV segment, process mapping, server attachment).
  Each call that acquires or releases one is an `Effect`. A
  `WellBracketed` predicate says a call sequence never takes a held
  resource twice and never gives back one it does not hold.
- `Image`: `CreateShmImage` and `CreateImage`, with the unwinding each
  failure point does. Each failure point is one oracle answer.
- `Picture`: `NewPicture` and the plane layout it publishes, and
  `FreePicture`.
- `Pool`: `vout_Init` filling up to `MAX_DIRECTBUFFERS` free slots, and
  `vout_End` freeing them in reverse order.
- `Cursor`: the pointer visibility flag, `ToggleCursor`, the auto-hide,
  and the re-blanking on a new window.
- `ScreenSaver`: `DisableXScreenSaver` / `EnableXScreenSaver` with their
  single snapshot.
- `Window`: `CreateWindow`. This covers the requested size, the wait for
  the Expose / MapNotify / ConfigureNotify acknowledgements over a finite
  event sequence, and the overlay sub-window.
- `Manage`: `vout_Manage`. It drains the window events, then the client
  messages, then applies the pending fullscreen toggle, the XVideo
  size-change acknowledgement and the pointer auto-hide. Commands to the
  rest of the player (seek, pause, quit, menu, channel join) are returned
  in the order of the events that caused them.

Conventions:

- Foreign calls are inputs. The server's answers to queries and the
  success or failure of each allocation and attachment are parameters.
  So are the events the server delivers and the clock readings.
- Calls with a visible effect on resources or on the pointer are
  recorded as effect sequences. Each sequence has its own meaning, so the
  properties are stated against that meaning rather than against the
  code that produced it.

## Model

| member | source | states |
|---|---|---|
| Seek.SeekTarget | plugins/x11/xcommon.c:216-229 | The position handed to the input thread lies in [0, size] for every seek length. A target that is already in range is the unclamped tell + seconds * 50 * mux rate. |
| Seek.ClampIdempotent | plugins/x11/xcommon.c:223-225 | Clamping lands in [0, size], and clamping an already clamped position changes nothing. |
| Seek.SeekMonotone | plugins/x11/xcommon.c:216-229 | A longer seek never lands before a shorter one. |
| Seek.SeekIgnoresStart | plugins/x11/xcommon.c:223-225 | The lower bound is 0, not the area start: a backward seek can land before an area start of 40. |
| Geometry.AspectSize | plugins/x11/xcommon.c:919-934 | When not fullscreen, one window dimension equals the render dimension and the other is stretched to the aspect ratio, rounded down, never below the render dimension. |
| Geometry.RequestedSize | plugins/x11/xcommon.c:911-934 | Fullscreen requests the display size. Otherwise the requested window is at least as wide and as high as the render size. |
| Geometry.AspectSizeCoversRender | plugins/x11/xcommon.c:919-934 | The requested window always covers the render size in both dimensions. |
| Geometry.SquareAspect | plugins/x11/xcommon.c:919-934 | With a 1:1 aspect the window is square, with side equal to the longer render side. |
| Geometry.ScanlineQuantum | plugins/x11/xcommon.c:1808-1823 | The quantum is 8, 16 or 32 and always divides the line length in bits. Each value is characterised exactly by the line length modulo 16 and 32. |
| Display.BytesPerPixel | plugins/x11/xcommon.c:1677-1693 | Bytes per pixel is the largest bits-per-pixel / 8 among the pixmap formats of the screen depth, or 0 when no format has that depth. |
| Display.InitDisplay | plugins/x11/xcommon.c:1598-1701 | XVideo only records shared-memory availability. X11 fails with the depth's error when no suitable visual exists; otherwise it reports the visual class and 1 byte per pixel at depth 8, or the pixmap-format maximum. |
| Resources.ReplayAppend | plugins/x11/xcommon.c:1711-1778 | Replaying two call sequences one after the other is replaying their concatenation. |
| Resources.WellBracketedAppend | plugins/x11/xcommon.c:1711-1778 | A concatenation is well bracketed when the first part is, and the second part is from the state the first leaves. |
| Resources.WellBracketedSplit | plugins/x11/xcommon.c:1711-1778 | Conversely, a well-bracketed concatenation has a well-bracketed first part, and a second part well bracketed from the state the first leaves. |
| Resources.ReplayCons | plugins/x11/xcommon.c:1711-1778 | Replaying and bracketing a sequence is the first call followed by the rest. |
| Image.CreateShmImage | plugins/x11/xcommon.c:1711-1778 | A shared-memory image comes back exactly when image creation, shmget, shmat and XShmAttach all succeed. |
| Image.ShmUnwindComplete | plugins/x11/xcommon.c:1724-1765 | Whichever step fails, the calls never take a held resource twice nor release one not held. A failure leaves the held resources unchanged; success adds exactly the image, segment, mapping and server attachment. |
| Image.UnwindAfterImage | plugins/x11/xcommon.c:1732-1739 | A failed shmget destroys the image and restores the held set. |
| Image.UnwindAfterSegment | plugins/x11/xcommon.c:1742-1750 | A failed shmat removes the segment, destroys the image and restores the held set. |
| Image.UnwindAfterMap | plugins/x11/xcommon.c:1758-1765 | A failed XShmAttach removes the segment, detaches it from the process, destroys the image and restores the held set. |
| Image.UnwindTail | plugins/x11/xcommon.c:1747-1764 | The final image destruction of every unwind gives back exactly the image structure. |
| Image.AttachedHoldsAll | plugins/x11/xcommon.c:1742-1777 | A successful creation holds all four shared-memory resources and nothing was released on the way. |
| Image.LocalImageLayout | plugins/x11/xcommon.c:1794-1823 | XVideo allocates 2 * w * h bytes and passes no quantum. X11 allocates w * bytes-per-pixel * h bytes, with a quantum that divides the line length in bits. |
| Image.CreateLocalImage | plugins/x11/xcommon.c:1785-1841 | A local image comes back exactly when the data allocation and the image creation both succeed. |
| Image.LocalUnwindComplete | plugins/x11/xcommon.c:1802-1838 | A failure frees the data it allocated and leaves the held set unchanged. Success holds the data and the image. |
| Picture.YuvPlanes | plugins/x11/xcommon.c:1193-1205 | The planar layout has three planes, in the order Y, U, V. |
| Picture.RgbPlanes | plugins/x11/xcommon.c:1245-1247 | The packed layout has one plane. |
| Picture.Layout | plugins/x11/xcommon.c:1151-1260 | A layout exists exactly for the build's own chroma: three planes for XVideo, one for X11. |
| Picture.YuvPlanesTile | plugins/x11/xcommon.c:1193-1205 | For even dimensions the Y, V and U planes are pairwise disjoint and follow each other without gaps. Together they cover 3wh/2 bytes, and each plane's bytes are its line length times its line count. |
| Picture.YuvPlanes64 | plugins/x11/xcommon.c:1193-1205 | For 64x64 the planes are Y at 0 (4096 bytes), U at 5120 and V at 4096 (1024 bytes each): U after V. |
| Picture.RgbPlaneFitsLocalImage | plugins/x11/xcommon.c:1245-1247 | The published RGB plane is `h` lines of `2w` bytes. It fits in the locally allocated image exactly when the display has at least 2 bytes per pixel. |
| Picture.YuvPlanesFitLocalImage | plugins/x11/xcommon.c:1193-1205 | For even dimensions every planar plane lies inside the 2 * w * h bytes the XVideo build allocates locally. |
| Picture.NewPicture | plugins/x11/xcommon.c:1145-1261 | Allocation succeeds exactly for the build's chroma with a successful descriptor and image allocation. An unknown chroma sets the plane count to zero. A failed allocation changes nothing else in the slot. Success publishes the layout and the resources taken. |
| Picture.NewPictureResources | plugins/x11/xcommon.c:1157-1250 | An allocation from an empty slot never takes a resource twice. A failure frees what it took; success holds exactly the descriptor and the resources of a shared or local image. |
| Picture.FreePictureEffects | plugins/x11/xcommon.c:1271-1291 | `FreePicture` as written makes six calls on the shared path and three on the local one, and always ends by freeing the descriptor. The leak it causes is stated by `Picture.XVideoLocalBufferLeaks`. |
| Picture.XVideoLocalBufferLeaks | plugins/x11/xcommon.c:1271-1291 | In the XVideo build without shared memory, freeing a picture leaves its local pixel buffer held. |
| Picture.FreePictureReleasesAll | plugins/x11/xcommon.c:1271-1291 | The corrected free releases every resource a successful allocation took, and never one it does not hold. |
| Picture.FreePictureAsWrittenLeaves | plugins/x11/xcommon.c:1271-1291 | For every build and path, the source's `FreePicture` leaves nothing of a successful allocation, except the local data buffer in the XVideo build without shared memory. |
| Picture.FreePicture | plugins/x11/xcommon.c:1271-1291 | With the corrected free, a freed slot holds nothing; its status, type and planes are untouched. |
| Pool.FirstFree | plugins/x11/xcommon.c:442-453 | The picture search yields the lowest-index free slot, and nothing exactly when no slot is free. |
| Pool.OutputFor | plugins/x11/xcommon.c:415-436 | XVideo keeps the render format when it is planar 4:2:0 and gives up otherwise. X11 always uses 16-bit RGB at the window size, with aspect width * 432000 / height rounded down. |
| Pool.LowestStep | plugins/x11/xcommon.c:440-473 | Taking the lowest free slot never passes over a lower free slot of the original array. |
| Pool.TakeLowest | plugins/x11/xcommon.c:440-473 | One round of the allocation loop keeps the round state: distinct, originally free slots, each a direct buffer with the layout, the rest untouched. |
| Pool.Init | plugins/x11/xcommon.c:408-474 | The result code is always 0 and at most MAX_DIRECTBUFFERS slots are taken, each the lowest free one at its turn. Each taken slot holds the picture that round's allocation made, and that allocation succeeded. Taken slots are marked direct with zero margins and the layout; no other slot changes. The loop stops at the limit, on no free slot, or at the first failed allocation. |
| Pool.End | plugins/x11/xcommon.c:881-891 | The recorded pictures are freed last allocated first, and no other slot changes. With the corrected free, each freed slot holds nothing afterwards. |
| Pool.InitThenEnd | plugins/x11/xcommon.c:408-474 | Untouched slots are unchanged. With the corrected free, after init then end every slot holds exactly the resources it held before. |
| Cursor.Toggle | plugins/x11/xcommon.c:1378-1392 | Toggling flips the visibility flag with one server call and keeps the last-motion time. |
| Cursor.ToggleAgrees | plugins/x11/xcommon.c:1378-1392 | Toggling keeps the flag in agreement with the pointer the server shows. Toggling twice restores the state. |
| Cursor.OnMotion | plugins/x11/xcommon.c:708-715 | A motion records its time and shows the pointer. A server call is made exactly when the pointer was hidden. |
| Cursor.Autohide | plugins/x11/xcommon.c:862-870 | The pointer is hidden exactly when it was visible and still for strictly more than 2 000 000 microseconds. |
| Cursor.Reapply | plugins/x11/xcommon.c:1111-1116 | Re-blanking on a new window leaves the flag unchanged. |
| Cursor.ReapplyAgrees | plugins/x11/xcommon.c:1111-1116 | A new window shows the default pointer; after the double toggle the server again shows what the flag says. |
| Cursor.Restore | plugins/x11/xcommon.c:374-378 | Teardown leaves the pointer visible. |
| Cursor.OperationsAgree | plugins/x11/xcommon.c:708-715 | Motion, auto-hide and teardown restore all keep the flag and the server in agreement. |
| ScreenSaver.DisableEnableRestores | plugins/x11/xcommon.c:1302-1334 | Disable then enable restores the server's parameters. DPMS, once switched off by XVideo, stays off. |
| ScreenSaver.DoubleDisableLosesTimeout | plugins/x11/xcommon.c:1296-1334 | There is a single snapshot, not a counter: disable, disable, enable leaves the timeout at 0. |
| Window.AwaitReady | plugins/x11/xcommon.c:1035-1059 | The wait ends exactly when Expose, MapNotify and ConfigureNotify for the window have all arrived. It consumes no more events than that. The window size is the last ConfigureNotify's. |
| Window.ReadyMonotone | plugins/x11/xcommon.c:1035-1059 | Once all three acknowledgements have arrived, more events keep them arrived. |
| Window.CreateWindow | plugins/x11/xcommon.c:898-1124 | The window is requested at the fullscreen or aspect size and is ready exactly when the three acknowledgements arrive. The wait stops at the first such point, and the size is the last ConfigureNotify before it. The overlay sub-window exists exactly in the XVideo build. The pointer flag is kept, and the server again shows what it says. |
| Window.HonouredRequest | plugins/x11/xcommon.c:1052-1057 | When every ConfigureNotify repeats the requested size, the window ends at the requested size. |
| Manage.CharCommands | plugins/x11/xcommon.c:640-671 | A looked-up character yields at most one command. |
| Manage.KeyCommands | plugins/x11/xcommon.c:590-671 | A key yields at most one command; a fullscreen request yields none. |
| Manage.KeyTable | plugins/x11/xcommon.c:590-671 | In both directions: quit is exactly Escape, q or Q; fullscreen exactly f or F; channel n exactly digit n; pause exactly space; menu exactly the Menu key. Arrows and page keys seek within [0, size] by ±5, ±60 and ±900 seconds. Home and End seek to the area start and size. |
| Manage.Step | plugins/x11/xcommon.c:562-721 | One event never changes the fullscreen mode, the size-change flag, the window or the window-manager atoms. It marks a fullscreen change exactly when it is an f or F key. |
| Manage.NeutralEventsKeepState | plugins/x11/xcommon.c:562-721 | Keys other than f/F, buttons, unknown events and a ConfigureNotify repeating the current size leave the driver state untouched. |
| Manage.StructureEvents | plugins/x11/xcommon.c:562-589 | ConfigureNotify records the new size. A repeated Map or Unmap is a no-op. Map then Unmap from the unmapped state gives the server its screen saver parameters back. |
| Manage.ButtonTable | plugins/x11/xcommon.c:675-706 | Button 1 pauses, buttons 4 and 5 seek 15 seconds forward and back, and releasing button 3 asks for the menu. Every other button does nothing. |
| Manage.StepCommands | plugins/x11/xcommon.c:562-721 | A key press yields exactly the key table's commands. ConfigureNotify, MapNotify, UnmapNotify, pointer motion and unknown events yield no command. |
| Manage.Drain | plugins/x11/xcommon.c:557-721 | Draining the window events never changes the fullscreen mode, the size-change flag, the window or the window-manager atoms. |
| Manage.DrainFullscreenFlag | plugins/x11/xcommon.c:648-652 | After the drain a fullscreen change is pending exactly when one was before or some f/F key arrived. Several keys mark it once. |
| Manage.DrainAppend | plugins/x11/xcommon.c:557-721 | Draining two event runs one after the other is draining their concatenation, with the commands in order. |
| Manage.DrainQuit | plugins/x11/xcommon.c:562-721 | Draining the window events asks to quit exactly when one of them is Escape, q or Q; no button, structure or unknown event does. |
| Manage.DrainAgrees | plugins/x11/xcommon.c:708-715 | Event handling keeps the pointer flag in agreement with the server. |
| Manage.ClientCommands | plugins/x11/xcommon.c:751-763 | The client-message drain yields only quit requests, at most one per message. |
| Manage.ClientCommandsQuit | plugins/x11/xcommon.c:751-763 | A quit is requested exactly when some client message is WM_PROTOCOLS carrying WM_DELETE_WINDOW. |
| Manage.ManageCycle | plugins/x11/xcommon.c:542-873 | Commands are the window-event commands followed by the client-message ones. A pending change flips fullscreen, clears the flag and re-creates the window at the size the new mode asks for. The driver's window size is then the last ConfigureNotify up to the first point where the new window is ready. XVideo clears the size-change flag. The pointer is auto-hidden. Flag/server agreement is kept, and the window-manager atoms are unchanged. The aspect is needed only when the cycle toggles from fullscreen back to windowed mode. |
| Manage.ToggleTwice | plugins/x11/xcommon.c:765-784 | Two cycles with one f key each restore the original mode, and the second window is requested at the original mode's size. |
| Manage.Destroy | plugins/x11/xcommon.c:372-400 | Teardown shows the pointer again and writes the screen saver snapshot back. |
| Manage.CreateMapDestroyLosesTimeout | plugins/x11/xcommon.c:572-579 | Creation disables the screen saver, and a first MapNotify while inactive disables it again. Teardown therefore restores a zero timeout. |

## Left out

- Every Xlib, Xv, MIT-SHM and SysV call is an input (an oracle answer or
  a server description) or an effect record, not executed.
- `vout_Probe` and `vout_getfunctions` are not modelled. They query the
  server or fill a function table, with no logic beyond the foreign calls.
- `XVideoGetPort` is not modelled. Its adaptor and port selection
  (xcommon.c:1398-1581) works on the answers of the Xv queries and on the
  outcome of each `XvGrabPort`, which would all be oracle inputs.
- `XVideoReleasePort` is not modelled. It calls `XvGrabPort` again rather
  than `XvUngrabPort` (xcommon.c:1586-1589), so it releases nothing.
- `vout_Display` and `DestroyWindow` are not modelled. They are pure
  foreign calls: put the image, or destroy the windows.
- `vout_Create` is modelled only through its effect on the screen saver
  and the pointer flag (`Manage.CreateMapDestroyLosesTimeout` starts from
  its state). Opening the display and creating the cursor are foreign
  calls.
- `CreateCursor`, `DestroyCursor`, the colormap code, the Motif window
  manager hints and the window attributes are foreign calls and are not
  modelled.
- The X11 resize block of `vout_Manage` is compiled out (`#if 0`), so it
  is not modelled.
- The XVideo expose drain of `vout_Manage` has an empty body, so it is
  not modelled.
- Picture.FreePicture: models the corrected free of the Findings row. The
  source's own free leaves the local data buffer held in the XVideo build
  without shared memory, as `Picture.FreePictureAsWrittenLeaves` states.
- Pool.End: frees through the corrected `Picture.FreePicture`. With the
  source's free, each freed slot of the XVideo build without shared memory
  still holds `LocalBuffer`.
- Pool.InitThenEnd: the held sets come back to their starting value only
  with the corrected free. With the source's free, each slot taken in the
  XVideo build without shared memory also keeps `LocalBuffer`.
- Pool.Init: the output thread's picture array is a sequence whose length
  stands for its capacity. The format of the thread's other pictures is
  not modelled.
- Seek.SeekTarget: `off_t` is 64 bits wide. Overflow of
  tell + seconds * 50 * mux rate is not modelled; integers are unbounded.
- Geometry.AspectSize: the C products `height * aspect` and
  `width * 432000` are `int` and can overflow for large sizes. The model
  uses unbounded integers.
- Pool.OutputFor: the same applies to `width * 432000 / height`.
- Geometry.AspectSize: a zero render aspect divides by zero in the source
  (the windowed branch divides by the aspect). The model requires a
  positive aspect wherever the windowed size is computed, and only there.
- Pool.OutputFor: a zero window height divides by zero in the X11 build.
  The model requires a positive height there; the X server never reports
  a zero-height window.
- Common.AspectFactor: the value 432000 of `VOUT_ASPECT_FACTOR` comes from
  a header that is not part of this model.
- Window.CreateWindow: the real event wait blocks until the three
  acknowledgements arrive. Here the events are a finite sequence, and
  running out of them is reported as "still waiting" (`None`). The
  source's failure return from `CreateWindow` cannot be taken, because the
  function always returns 0. Both paths of `vout_Manage` that depend on
  it are therefore the one success path plus that wait.
- Manage.ManageCycle: commands go to the interface and input threads
  without locking in the source. The model returns them in order;
  concurrency is not modelled.
- Manage.ManageCycle: the shared-memory XVideo path of `vout_Display` and
  its expose handling are not modelled.
- Image.CreateShmImage: `shmat` reports failure with `(void *)-1`, but
  the source tests for a null pointer. The model takes the mapping oracle
  as the source's own test, whatever value triggers it.
- Display.InitDisplay: the Darwin build forces shared memory off; only
  the query result is modelled.

## Findings

| source | as written | input that shows it | evidently intended | confidence | as-written member | corrected member |
|---|---|---|---|---|---|---|
| plugins/x11/xcommon.c:1271-1291 | In the XVideo build `IMAGE_FREE` is `XFree`, which frees only the image structure, while `CreateImage` mallocs the pixel data itself. Without shared memory, `FreePicture` never frees that buffer. | XVideo build, server without MIT-SHM, one `vout_Init` then `vout_End`: each picture leaves its `2 * w * h`-byte buffer allocated. | Free the local data buffer along with the image structure, so a freed picture holds nothing. | medium, not executed | Picture.XVideoLocalBufferLeaks | Picture.FreePictureReleasesAll |

=== FILE: common.dfy ===
/** Definitions shared by the X11 and XVideo output drivers: the build
    variant, the chroma codes, the compile-time constants and an Option type. */
module Common {

  /** The two drivers built from the same source file; the XVideo build
      uses a hardware-scaled overlay sub-window and planar YUV buffers,
      the X11 build packed 16-bit RGB buffers. */
  datatype Variant = X11 | XVideo

  datatype Option<+T> = None | Some(value: T)

  /** Picture formats the output structure can carry. `OtherChroma`
      stands for every code neither build knows. */
  datatype Chroma = Yuv420 | Rgb16 | OtherChroma(code: int)

  /** Fixed-point scale of the aspect ratio (4:3 is 4 * AspectFactor / 3). */
  const AspectFactor: int := 432000

  /** Largest number of direct buffers `vout_Init` allocates. */
  function MaxDirectBuffers(v: Variant): (n: nat)
    ensures v == X11 ==> n == 2
    ensures v == XVideo ==> n == 5
  {
    match v
    case X11 => 2
    case XVideo => 5
  }

  /** The one chroma each build can allocate pictures for. */
  function NativeChroma(v: Variant): (c: Chroma)
    ensures v == X11 <==> c == Rgb16
    ensures v == XVideo <==> c == Yuv420
  {
    match v
    case X11 => Rgb16
    case XVideo => Yuv420
  }
}

=== FILE: cursor.dfy ===
/** Mouse pointer auto-hiding. The driver keeps a visibility flag and the
    time of the last motion; `ToggleCursor` is the only call that changes
    what the server shows, by defining the blank cursor on the window or
    undefining it (back to the default pointer). */
module Cursor {

  /** Microseconds of pointer stillness after which the pointer is hidden. */
  const HideDelay: int := 2000000

  datatype CursorState = CursorState(visible: bool, lastMoved: int)

  /** The two server calls `ToggleCursor` makes. */
  datatype CursorCall = DefineBlank | Undefine

  /** What the server shows on the window. */
  datatype Shown = BlankPointer | DefaultPointer

  function Show(shown: Shown, call: CursorCall): Shown
  {
    match call
    case DefineBlank => BlankPointer
    case Undefine => DefaultPointer
  }

  function ShowAll(shown: Shown, calls: seq<CursorCall>): Shown
    decreases |calls|
  {
    if |calls| == 0 then shown else ShowAll(Show(shown, calls[0]), calls[1..])
  }

  /** The flag says what the server shows. */
  predicate Agrees(c: CursorState, shown: Shown)
  {
    c.visible <==> shown == DefaultPointer
  }

  datatype Toggled = Toggled(cursor: CursorState, calls: seq<CursorCall>)

  /** `ToggleCursor`: blank a visible pointer, restore a hidden one. */
  function Toggle(c: CursorState): (r: Toggled)
    ensures r.cursor.visible == !c.visible && r.cursor.lastMoved == c.lastMoved
    ensures |r.calls| == 1
  {
    if c.visible then Toggled(c.(visible := false), [DefineBlank])
    else Toggled(c.(visible := true), [Undefine])
  }

  /** Toggling keeps the flag and the server in agreement, and toggling
      twice gives back the original state. */
  lemma ToggleAgrees(c: CursorState, shown: Shown)
    requires Agrees(c, shown)
    ensures Agrees(Toggle(c).cursor, ShowAll(shown, Toggle(c).calls))
    ensures Toggle(Toggle(c).cursor).cursor == c
  {
    var t := Toggle(c);
    assert t.calls[1..] == [];
  }

  /** A motion event: record the time, and show the pointer if hidden. */
  function OnMotion(c: CursorState, now: int): (r: Toggled)
    ensures r.cursor == CursorState(true, now)
    ensures c.visible <==> r.calls == []
  {
    var moved := c.(lastMoved := now);
    if !moved.visible then Toggle(moved) else Toggled(moved, [])
  }

  /** The end-of-cycle check: hide a visible pointer once it has been still
      for strictly more than the delay. */
  function Autohide(c: CursorState, now: int): (r: Toggled)
    ensures r.cursor.lastMoved == c.lastMoved
    ensures r.cursor.visible <==> c.visible && now - c.lastMoved <= HideDelay
    ensures r.calls != [] <==> c.visible && now - c.lastMoved > HideDelay
  {
    if now - c.lastMoved > HideDelay && c.visible then Toggle(c) else Toggled(c, [])
  }

  /** `CreateWindow`'s re-blanking: a hidden pointer is toggled twice, which
      leaves the flag as it was and blanks the pointer on the new window. */
  function Reapply(c: CursorState): (r: Toggled)
    ensures r.cursor == c
  {
    if !c.visible then
      var t1 := Toggle(c);
      var t2 := Toggle(t1.cursor);
      Toggled(t2.cursor, t1.calls + t2.calls)
    else Toggled(c, [])
  }

  /** A new window shows the default pointer; after the re-blanking the
      server agrees with the flag again. */
  lemma ReapplyAgrees(c: CursorState)
    ensures Agrees(Reapply(c).cursor, ShowAll(DefaultPointer, Reapply(c).calls))
  {
    var r := Reapply(c);
    if !c.visible {
      assert r.calls == [Undefine, DefineBlank];
      assert r.calls[1..] == [DefineBlank];
      assert r.calls[1..][1..] == [];
    }
  }

  /** `vout_Destroy`: a blanked pointer is restored before the window goes. */
  function Restore(c: CursorState): (r: Toggled)
    ensures r.cursor.visible
    ensures r.cursor.lastMoved == c.lastMoved
  {
    if !c.visible then Toggle(c) else Toggled(c, [])
  }

  /** Every operation keeps the flag and the server in agreement. */
  lemma OperationsAgree(c: CursorState, shown: Shown, now: int)
    requires Agrees(c, shown)
    ensures Agrees(OnMotion(c, now).cursor, ShowAll(shown, OnMotion(c, now).calls))
    ensures Agrees(Autohide(c, now).cursor, ShowAll(shown, Autohide(c, now).calls))
    ensures Agrees(Restore(c).cursor, ShowAll(shown, Restore(c).calls))
  {
    ToggleAgrees(c, shown);
    ToggleAgrees(c.(lastMoved := now), shown);
  }
}

=== FILE: display.dfy ===
/** Display negotiation (`InitDisplay`): shared-memory availability, and for
    the X11 build the visual class and the number of bytes per pixel of the
    screen depth. Server queries are inputs. */
module Display {
  import opened Common

  /** One entry of the server's pixmap format list. */
  datatype PixmapFormat = PixmapFormat(depth: int, bitsPerPixel: nat)

  datatype VisualClass = DirectColor | TrueColor

  /** What the server reports: whether MIT-SHM is present, the default
      depth, whether a visual of the requested class exists, and the pixmap
      formats. */
  datatype Server = Server(shmExtension: bool, depth: int, visualFound: bool,
                           formats: seq<PixmapFormat>)

  datatype DisplayInfo = DisplayInfo(shm: bool, depth: int, visual: Option<VisualClass>,
                                     bytesPerPixel: nat)

  datatype DisplayError = NoPseudoColorVisual | NoTrueColorVisual

  datatype Negotiated = Ready(info: DisplayInfo) | Failed(error: DisplayError)

  /** The visual class each depth asks for: the 8-bit branch queries
      DirectColor (though its message speaks of PseudoColor), every other
      depth TrueColor. */
  function VisualFor(depth: int): (c: VisualClass)
    ensures c == DirectColor <==> depth == 8
  {
    if depth == 8 then DirectColor else TrueColor
  }

  /** Largest `bitsPerPixel / 8` over the formats of the given depth, 0 when
      none has that depth. */
  method BytesPerPixel(formats: seq<PixmapFormat>, depth: int) returns (bpp: nat)
    ensures forall i :: 0 <= i < |formats| && formats[i].depth == depth ==>
              formats[i].bitsPerPixel / 8 <= bpp
    ensures bpp == 0 || exists i :: 0 <= i < |formats| && formats[i].depth == depth
                                    && formats[i].bitsPerPixel / 8 == bpp
  {
    bpp := 0;
    var k := 0;
    while k < |formats|
      invariant 0 <= k <= |formats|
      invariant forall i :: 0 <= i < k && formats[i].depth == depth ==>
                  formats[i].bitsPerPixel / 8 <= bpp
      invariant bpp == 0 || exists i :: 0 <= i < k && formats[i].depth == depth
                                        && formats[i].bitsPerPixel / 8 == bpp
    {
      if formats[k].depth == depth && formats[k].bitsPerPixel / 8 > bpp {
        bpp := formats[k].bitsPerPixel / 8;
      }
      k := k + 1;
    }
  }

  /** `InitDisplay`. The XVideo build only records shared-memory
      availability. The X11 build fails when no visual of the class its
      depth needs exists; depth 8 gives one byte per pixel, every other
      depth the largest match in the pixmap format list. */
  method InitDisplay(v: Variant, server: Server) returns (r: Negotiated)
    ensures v == XVideo ==> r == Ready(DisplayInfo(server.shmExtension, server.depth, None, 0))
    ensures v == X11 && !server.visualFound ==>
              r == Failed(if server.depth == 8 then NoPseudoColorVisual else NoTrueColorVisual)
    ensures r.Ready? ==> r.info.shm == server.shmExtension
    ensures v == X11 && server.visualFound ==>
              r.Ready? && r.info.visual == Some(VisualFor(server.depth))
    ensures v == X11 && server.visualFound && server.depth == 8 ==> r.Ready? && r.info.bytesPerPixel == 1
    ensures v == X11 && server.visualFound && server.depth != 8 ==>
              r.Ready?
              && (forall i :: 0 <= i < |server.formats| && server.formats[i].depth == server.depth ==>
                    server.formats[i].bitsPerPixel / 8 <= r.info.bytesPerPixel)
              && (r.info.bytesPerPixel == 0
                  || exists i :: 0 <= i < |server.formats| && server.formats[i].depth == server.depth
                                 && server.formats[i].bitsPerPixel / 8 == r.info.bytesPerPixel)
  {
    var shm := server.shmExtension;
    if v == XVideo {
      return Ready(DisplayInfo(shm, server.depth, None, 0));
    }
    if server.depth == 8 {
      if !server.visualFound {
        return Failed(NoPseudoColorVisual);
      }
      return Ready(DisplayInfo(shm, server.depth, Some(DirectColor), 1));
    }
    if !server.visualFound {
      return Failed(NoTrueColorVisual);
    }
    var bpp := BytesPerPixel(server.formats, server.depth);
    return Ready(DisplayInfo(shm, server.depth, Some(TrueColor), bpp));
  }
}

=== FILE: geometry.dfy ===
/** Integer geometry of the output: the main window's size derived from the
    render size and aspect ratio, and the scanline quantum of a local
    XImage. All operands are non-negative, so C's truncating division and
    remainder agree with Dafny's. */
module Geometry {
  import opened Common

  datatype Size = Size(width: nat, height: nat)

  /** Window size when not fullscreen: keep the render height and widen, or
      keep the render width and heighten, whichever preserves the aspect
      ratio without shrinking either render dimension. */
  function AspectSize(render: Size, aspect: nat): (r: Size)
    requires aspect > 0
    ensures render.height * aspect >= render.width * AspectFactor ==>
              r.height == render.height && r.width >= render.width
              && r.width * AspectFactor <= render.height * aspect < (r.width + 1) * AspectFactor
    ensures render.height * aspect < render.width * AspectFactor ==>
              r.width == render.width && r.height >= render.height
              && r.height * aspect <= render.width * AspectFactor < (r.height + 1) * aspect
  {
    if render.height * aspect >= render.width * AspectFactor then
      Size(render.height * aspect / AspectFactor, render.height)
    else
      Size(render.width, render.width * AspectFactor / aspect)
  }

  /** Size `CreateWindow` requests before the window manager answers: the
      display size in fullscreen, the aspect-derived size otherwise. */
  function RequestedSize(fullscreen: bool, display: Size, render: Size, aspect: nat): (r: Size)
    requires !fullscreen ==> aspect > 0
    ensures fullscreen ==> r == display
    ensures !fullscreen ==> r == AspectSize(render, aspect)
    ensures !fullscreen ==> r.width >= render.width && r.height >= render.height
  {
    if fullscreen then display else AspectSize(render, aspect)
  }

  /** Whichever branch is taken, one window dimension equals the render
      dimension and the other is at least the render dimension. */
  lemma AspectSizeCoversRender(render: Size, aspect: nat)
    requires aspect > 0
    ensures var r := AspectSize(render, aspect);
            (r.width == render.width && r.height >= render.height)
            || (r.height == render.height && r.width >= render.width)
  {
  }

  /** Square pixels: a 1:1 aspect gives a square window on the longer side. */
  lemma SquareAspect(render: Size)
    ensures var r := AspectSize(render, AspectFactor);
            r.width == r.height
            && r.width == if render.height >= render.width then render.height else render.width
  {
  }

  /** Scanline quantum for an XImage whose lines are `bytesPerLine` long:
      8 when the line is not a multiple of 16 bytes, 16 when bit 4 of the
      length is set, otherwise 32. (`x & 0xf` is `x % 16` and `x & 0x10` is
      `x % 32 >= 16` for non-negative `x`.) */
  function ScanlineQuantum(bytesPerLine: nat): (q: nat)
    ensures q == 8 || q == 16 || q == 32
    ensures (8 * bytesPerLine) % q == 0
    ensures q == 8 <==> bytesPerLine % 16 != 0
    ensures q == 16 <==> bytesPerLine % 32 == 16
    ensures q == 32 <==> bytesPerLine % 32 == 0
  {
    if bytesPerLine % 16 != 0 then 8
    else if bytesPerLine % 32 >= 16 then 16
    else 32
  }
}

=== FILE: image.dfy ===
/** Image creation: `CreateShmImage` (image backed by a SysV segment shared
    with the server) and `CreateImage` (image over locally allocated data).
    Every Xlib / Xv / SysV call is an effect from the Resources module and
    every way it can fail is an oracle answer. */
module Image {
  import opened Common
  import opened Resources
  import Geometry

  /** Answers of the calls image creation makes, one per fallible step. */
  datatype Oracle = Oracle(imageOk: bool, segmentOk: bool, mapOk: bool, attachOk: bool, dataOk: bool)

  /** Outcome of an image creation: whether an image came back, and the
      calls it made that changed a resource, in order. */
  datatype Built = Built(ok: bool, effects: seq<Effect>)

  /** The four resources a shared-memory image holds. */
  function ShmImageResources(): set<Resource>
  {
    {ImageHandle, SegmentCreated, SegmentMapped, ServerAttached}
  }

  /** `CreateShmImage`: create the image, create the segment, map it into
      the process, attach it to the server, each step undoing the earlier
      ones when it fails. A shared-memory image never owns local data, so
      freeing it releases the structure only. */
  function CreateShmImage(o: Oracle): (b: Built)
    ensures b.ok <==> o.imageOk && o.segmentOk && o.mapOk && o.attachOk
  {
    if !o.imageOk then Built(false, [])
    else if !o.segmentOk then Built(false, [CreateImage, DestroyImage(false)])
    else if !o.mapOk then Built(false, [CreateImage, ShmGet, ShmRemove, DestroyImage(false)])
    else if !o.attachOk then
      Built(false, [CreateImage, ShmGet, ShmAt, ShmRemove, ShmDt, DestroyImage(false)])
    else Built(true, [CreateImage, ShmGet, ShmAt, ServerAttach, Sync])
  }

  /** Whatever step fails, the unwind releases exactly what was taken: a
      failed creation leaves the held set as it found it, a successful one
      adds the four shared-memory resources, and no call double-allocates
      or double-frees. */
  lemma ShmUnwindComplete(held: set<Resource>, o: Oracle)
    requires held !! ShmImageResources()
    ensures var b := CreateShmImage(o);
            WellBracketed(held, b.effects)
            && (!b.ok ==> Replay(held, b.effects) == held)
            && (b.ok ==> Replay(held, b.effects) == held + ShmImageResources())
  {
    var b := CreateShmImage(o);
    if !o.imageOk {
    } else if !o.segmentOk {
      UnwindAfterImage(held);
    } else if !o.mapOk {
      UnwindAfterSegment(held);
    } else if !o.attachOk {
      UnwindAfterMap(held);
    } else {
      AttachedHoldsAll(held);
    }
  }

  lemma UnwindAfterImage(held: set<Resource>)
    requires held !! ShmImageResources()
    ensures WellBracketed(held, [CreateImage, DestroyImage(false)])
    ensures Replay(held, [CreateImage, DestroyImage(false)]) == held
  {
    var e := [CreateImage, DestroyImage(false)];
    var h1 := held + {ImageHandle};
    assert Apply(held, e[0]) == h1;
    assert Apply(h1, e[1]) == held;
    assert e[1..][1..] == [];
  }

  lemma UnwindAfterSegment(held: set<Resource>)
    requires held !! ShmImageResources()
    ensures WellBracketed(held, [CreateImage, ShmGet, ShmRemove, DestroyImage(false)])
    ensures Replay(held, [CreateImage, ShmGet, ShmRemove, DestroyImage(false)]) == held
  {
    var e := [CreateImage, ShmGet, ShmRemove, DestroyImage(false)];
    var h1 := held + {ImageHandle};
    var h2 := h1 + {SegmentCreated};
    assert Apply(held, e[0]) == h1;
    assert Apply(h1, e[1]) == h2;
    assert Apply(h2, e[2]) == h1;
    assert e[1..] == [ShmGet, ShmRemove, DestroyImage(false)];
    assert e[1..][1..] == [ShmRemove, DestroyImage(false)];
    assert e[1..][1..][1..] == [DestroyImage(false)];
    UnwindTail(held, h1);
  }

  lemma UnwindAfterMap(held: set<Resource>)
    requires held !! ShmImageResources()
    ensures WellBracketed(held, [CreateImage, ShmGet, ShmAt, ShmRemove, ShmDt, DestroyImage(false)])
    ensures Replay(held, [CreateImage, ShmGet, ShmAt, ShmRemove, ShmDt, DestroyImage(false)]) == held
  {
    var e := [CreateImage, ShmGet, ShmAt, ShmRemove, ShmDt, DestroyImage(false)];
    var h1 := held + {ImageHandle};
    var h2 := h1 + {SegmentCreated};
    var h3 := h2 + {SegmentMapped};
    var h4 := h1 + {SegmentMapped};
    assert Apply(held, e[0]) == h1;
    assert Apply(h1, e[1]) == h2;
    assert Apply(h2, e[2]) == h3;
    assert Apply(h3, e[3]) == h4;
    assert Apply(h4, e[4]) == h1;
    assert e[1..] == [ShmGet, ShmAt, ShmRemove, ShmDt, DestroyImage(false)];
    assert e[1..][1..] == [ShmAt, ShmRemove, ShmDt, DestroyImage(false)];
    assert e[1..][1..][1..] == [ShmRemove, ShmDt, DestroyImage(false)];
    assert e[1..][1..][1..][1..] == [ShmDt, DestroyImage(false)];
    assert e[1..][1..][1..][1..][1..] == [DestroyImage(false)];
    UnwindTail(held, h1);
  }

  /** The final `IMAGE_FREE` of every unwind. */
  lemma UnwindTail(held: set<Resource>, h1: set<Resource>)
    requires held !! ShmImageResources()
    requires h1 == held + {ImageHandle}
    ensures WellBracketed(h1, [DestroyImage(false)])
    ensures Replay(h1, [DestroyImage(false)]) == held
  {
    var e := [DestroyImage(false)];
    assert Apply(h1, e[0]) == held;
    assert e[1..] == [];
  }

  lemma AttachedHoldsAll(held: set<Resource>)
    requires held !! ShmImageResources()
    ensures WellBracketed(held, [CreateImage, ShmGet, ShmAt, ServerAttach, Sync])
    ensures Replay(held, [CreateImage, ShmGet, ShmAt, ServerAttach, Sync]) == held + ShmImageResources()
  {
    var e := [CreateImage, ShmGet, ShmAt, ServerAttach, Sync];
    var h1 := held + {ImageHandle};
    var h2 := h1 + {SegmentCreated};
    var h3 := h2 + {SegmentMapped};
    var h4 := h3 + {ServerAttached};
    assert Apply(held, e[0]) == h1;
    assert Apply(h1, e[1]) == h2;
    assert Apply(h2, e[2]) == h3;
    assert Apply(h3, e[3]) == h4;
    assert Apply(h4, e[4]) == h4;
    assert e[1..] == [ShmGet, ShmAt, ServerAttach, Sync];
    assert e[1..][1..] == [ShmAt, ServerAttach, Sync];
    assert e[1..][1..][1..] == [ServerAttach, Sync];
    assert e[1..][1..][1..][1..] == [Sync];
    assert e[1..][1..][1..][1..][1..] == [];
    assert h4 == held + ShmImageResources();
  }

  /** Facts about a local (non-shared) image: the size of its data buffer
      and, for the X11 build, its scanline quantum. */
  datatype LocalLayout = LocalLayout(dataBytes: nat, quantum: Option<nat>)

  /** Data size and quantum `CreateImage` uses: the XVideo build allocates
      two bytes per pixel whatever the format, the X11 build
      `width * bytesPerPixel` bytes per line. */
  function LocalImageLayout(v: Variant, width: nat, height: nat, bytesPerPixel: nat): (l: LocalLayout)
    ensures v == XVideo ==> l.dataBytes == 2 * width * height && l.quantum == None
    ensures v == X11 ==> l.dataBytes == width * bytesPerPixel * height
                         && l.quantum.Some? && l.quantum.value > 0 && (8 * width * bytesPerPixel) % l.quantum.value == 0
  {
    match v
    case XVideo => LocalLayout(width * height * 2, None)
    case X11 =>
      var bytesPerLine := width * bytesPerPixel;
      assert 8 * width * bytesPerPixel == 8 * bytesPerLine;
      LocalLayout(bytesPerLine * height, Some(Geometry.ScanlineQuantum(bytesPerLine)))
  }

  /** `CreateImage`: allocate the data, then wrap it in an image; if the
      wrap fails the data is freed. */
  function CreateLocalImage(o: Oracle): (b: Built)
    ensures b.ok <==> o.dataOk && o.imageOk
  {
    if !o.dataOk then Built(false, [])
    else if !o.imageOk then Built(false, [AllocData, FreeData])
    else Built(true, [AllocData, CreateImage])
  }

  /** A failed local creation leaves the held set as it found it; a
      successful one adds the data buffer and the image structure. */
  lemma LocalUnwindComplete(held: set<Resource>, o: Oracle)
    requires LocalBuffer !in held && ImageHandle !in held
    ensures var b := CreateLocalImage(o);
            WellBracketed(held, b.effects)
            && (!b.ok ==> Replay(held, b.effects) == held)
            && (b.ok ==> Replay(held, b.effects) == held + {LocalBuffer, ImageHandle})
  {
    var b := CreateLocalImage(o);
    if o.dataOk && !o.imageOk {
      assert Replay(held, b.effects) == Replay(held + {LocalBuffer}, [FreeData]);
    }
  }
}

=== FILE: manage.dfy ===
/** The event dispatcher (`vout_Manage`): drain the main window's events,
    then the client messages, then apply a pending fullscreen toggle, the
    XVideo size-change acknowledgement and the pointer auto-hide. Commands
    the driver gives the rest of the player (seek, pause, quit, menu,
    channel join) are returned in the order of the events that caused them
    instead of written to the global interface structure. */
module Manage {
  import opened Common
  import opened Seek
  import Geometry
  import Cursor
  import ScreenSaver
  import Window

  /** Key symbols the first switch of the key handler knows; every other
      symbol falls through to the character lookup. */
  datatype KeySym =
    | Escape | Menu | Left | Right | Up | Down | Home | End | PageUp | PageDown | Space
    | OtherKey(code: int)

  /** Events taken from the main window's queue. A key press carries its
      symbol and the character `XLookupString` produces, if any; a motion
      carries the clock reading taken while handling it. */
  datatype WindowEvent =
    | ConfigureNotify(width: int, height: int)
    | MapNotify
    | UnmapNotify
    | KeyPress(sym: KeySym, text: Option<char>)
    | ButtonPress(button: int)
    | ButtonRelease(button: int)
    | MotionNotify(time: int)
    | OtherEvent(code: int)

  /** A client message: its type atom and first data word. */
  datatype ClientMessage = ClientMessage(messageType: int, data0: int)

  /** Requests to the rest of the player. */
  datatype Command =
    | SeekTo(position: int)
    | Pause
    | Die
    | MenuChange
    | ChannelJoin(channel: nat)

  /** The driver state the dispatcher reads and writes. */
  datatype Vout = Vout(
    width: int, height: int,          // main window size
    active: bool,                     // the window is mapped
    fullscreen: bool,
    fullscreenChange: bool,           // VOUT_FULLSCREEN_CHANGE pending
    sizeChange: bool,                 // VOUT_SIZE_CHANGE pending
    cursor: Cursor.CursorState,
    shown: Cursor.Shown,              // pointer the server shows on the window
    saver: ScreenSaver.Saver,
    window: int,
    wmProtocols: int, wmDeleteWindow: int)

  datatype KeyResult = KeyResult(commands: seq<Command>, fullscreenRequest: bool)

  /** The character switch, reached for symbols the first switch does not
      know: q/Q quit, f/F request fullscreen, a digit joins that channel. */
  function CharCommands(text: Option<char>): (r: KeyResult)
    ensures |r.commands| <= 1
  {
    match text
    case None => KeyResult([], false)
    case Some(c) =>
      if c == 'q' || c == 'Q' then KeyResult([Die], false)
      else if c == 'f' || c == 'F' then KeyResult([], true)
      else if '0' <= c <= '9' then KeyResult([ChannelJoin((c as int) - ('0' as int))], false)
      else KeyResult([], false)
  }

  /** The key handler. */
  function KeyCommands(sym: KeySym, text: Option<char>, area: StreamArea): (r: KeyResult)
    ensures |r.commands| <= 1
    ensures r.fullscreenRequest ==> r.commands == []
  {
    match sym
    case Escape => KeyResult([Die], false)
    case Menu => KeyResult([MenuChange], false)
    case Left => KeyResult([SeekTo(SeekTarget(area, -5))], false)
    case Right => KeyResult([SeekTo(SeekTarget(area, 5))], false)
    case Up => KeyResult([SeekTo(SeekTarget(area, 60))], false)
    case Down => KeyResult([SeekTo(SeekTarget(area, -60))], false)
    case Home => KeyResult([SeekTo(area.start)], false)
    case End => KeyResult([SeekTo(area.size)], false)
    case PageUp => KeyResult([SeekTo(SeekTarget(area, 900))], false)
    case PageDown => KeyResult([SeekTo(SeekTarget(area, -900))], false)
    case Space => KeyResult([Pause], false)
    case OtherKey(_) => CharCommands(text)
  }

  /** Seconds of the relative seek a key asks for, if it asks for one. */
  function SeekSeconds(sym: KeySym): Option<int>
  {
    match sym
    case Left => Some(-5)
    case Right => Some(5)
    case Up => Some(60)
    case Down => Some(-60)
    case PageUp => Some(900)
    case PageDown => Some(-900)
    case _ => None
  }

  /** Keys that quit: Escape, and q or Q among the unnamed keys. */
  predicate QuitKey(sym: KeySym, text: Option<char>)
  {
    sym == Escape || (sym.OtherKey? && (text == Some('q') || text == Some('Q')))
  }

  /** The key table in both directions: a key quits exactly when it is a
      quit key, asks for fullscreen exactly when it is an unnamed f or F,
      joins channel `n` exactly when it is the digit `n`, and seeks to a
      position inside the stream exactly when it is an arrow or page key
      (Home and End seek to the area start and size). */
  lemma KeyTable(sym: KeySym, text: Option<char>, area: StreamArea)
    requires area.size >= 0
    ensures var r := KeyCommands(sym, text, area);
            && (Die in r.commands <==> QuitKey(sym, text))
            && (r.fullscreenRequest <==> sym.OtherKey? && (text == Some('f') || text == Some('F')))
            && (forall n: nat :: ChannelJoin(n) in r.commands <==>
                  sym.OtherKey? && text.Some? && '0' <= text.value <= '9'
                  && n == (text.value as int) - ('0' as int))
            && (SeekSeconds(sym).Some? ==> r.commands == [SeekTo(SeekTarget(area, SeekSeconds(sym).value))])
            && ((exists p :: SeekTo(p) in r.commands) <==> SeekSeconds(sym).Some? || sym == Home || sym == End)
            && (sym == Home ==> r.commands == [SeekTo(area.start)])
            && (sym == End ==> r.commands == [SeekTo(area.size)])
            && (forall p :: SeekTo(p) in r.commands && sym != Home ==> 0 <= p <= area.size)
            && (Pause in r.commands <==> sym == Space)
            && (MenuChange in r.commands <==> sym == Menu)
  {
  }

  datatype Stepped = Stepped(vout: Vout, commands: seq<Command>)

  /** Handling of one main-window event. */
  function Step(v: Variant, s: Vout, area: StreamArea, ev: WindowEvent): (r: Stepped)
    ensures r.vout.fullscreen == s.fullscreen && r.vout.sizeChange == s.sizeChange
    ensures r.vout.window == s.window
    ensures r.vout.wmProtocols == s.wmProtocols && r.vout.wmDeleteWindow == s.wmDeleteWindow
    ensures r.vout.fullscreenChange == (s.fullscreenChange
              || (ev.KeyPress? && KeyCommands(ev.sym, ev.text, area).fullscreenRequest))
  {
    match ev
    case ConfigureNotify(w, h) =>
      if w != s.width || h != s.height then Stepped(s.(width := w, height := h), [])
      else Stepped(s, [])
    case MapNotify =>
      if !s.active then Stepped(s.(saver := ScreenSaver.Disable(v, s.saver), active := true), [])
      else Stepped(s, [])
    case UnmapNotify =>
      if s.active then Stepped(s.(saver := ScreenSaver.Enable(s.saver), active := false), [])
      else Stepped(s, [])
    case KeyPress(sym, text) =>
      var k := KeyCommands(sym, text, area);
      Stepped(s.(fullscreenChange := s.fullscreenChange || k.fullscreenRequest), k.commands)
    case ButtonPress(b) =>
      if b == 1 then Stepped(s, [Pause])
      else if b == 4 then Stepped(s, [SeekTo(SeekTarget(area, 15))])
      else if b == 5 then Stepped(s, [SeekTo(SeekTarget(area, -15))])
      else Stepped(s, [])
    case ButtonRelease(b) =>
      if b == 3 then Stepped(s, [MenuChange]) else Stepped(s, [])
    case MotionNotify(t) =>
      var m := Cursor.OnMotion(s.cursor, t);
      Stepped(s.(cursor := m.cursor, shown := Cursor.ShowAll(s.shown, m.calls)), [])
    case OtherEvent(_) => Stepped(s, [])
  }

  /** Events that leave the driver state alone: every key but an unnamed
      f or F, every button, every unknown event, and a ConfigureNotify
      repeating the current size. */
  predicate StateNeutral(s: Vout, area: StreamArea, ev: WindowEvent)
  {
    || (ev.KeyPress? && !KeyCommands(ev.sym, ev.text, area).fullscreenRequest)
    || ev.ButtonPress? || ev.ButtonRelease? || ev.OtherEvent?
    || (ev.ConfigureNotify? && ev.width == s.width && ev.height == s.height)
  }

  lemma NeutralEventsKeepState(v: Variant, s: Vout, area: StreamArea, ev: WindowEvent)
    requires StateNeutral(s, area, ev)
    ensures Step(v, s, area, ev).vout == s
  {
  }

  /** A ConfigureNotify records the new size; Map and Unmap only act on a
      change of the mapped flag, so a repeated one is a no-op, and an Unmap
      after a Map from the unmapped state gives the server its screen saver
      parameters back. */
  lemma StructureEvents(v: Variant, s: Vout, area: StreamArea, w: int, h: int)
    ensures var r := Step(v, s, area, ConfigureNotify(w, h)).vout;
            r.width == w && r.height == h && r == s.(width := w, height := h)
    ensures var m := Step(v, s, area, MapNotify).vout;
            m.active && Step(v, m, area, MapNotify).vout == m
    ensures var u := Step(v, s, area, UnmapNotify).vout;
            !u.active && Step(v, u, area, UnmapNotify).vout == u
    ensures !s.active ==>
              var u := Step(v, Step(v, s, area, MapNotify).vout, area, UnmapNotify).vout;
              !u.active && u.saver.server == s.saver.server
  {
  }

  /** Mouse buttons: 1 pauses, the wheel (4 and 5) seeks 15 seconds
      forward or back, releasing 3 asks for the menu; nothing else does
      anything. */
  lemma ButtonTable(v: Variant, s: Vout, area: StreamArea, b: int)
    ensures Step(v, s, area, ButtonPress(b)).commands ==
              if b == 1 then [Pause]
              else if b == 4 then [SeekTo(SeekTarget(area, 15))]
              else if b == 5 then [SeekTo(SeekTarget(area, -15))]
              else []
    ensures Step(v, s, area, ButtonRelease(b)).commands == if b == 3 then [MenuChange] else []
    ensures b == 4 && area.size >= 0 ==> forall p :: SeekTo(p) in Step(v, s, area, ButtonPress(b)).commands ==> 0 <= p <= area.size
  {
  }

  /** A key press yields exactly the key table's commands; structure
      events, pointer motion and unknown events yield none. */
  lemma StepCommands(v: Variant, s: Vout, area: StreamArea, ev: WindowEvent)
    ensures ev.KeyPress? ==> Step(v, s, area, ev).commands == KeyCommands(ev.sym, ev.text, area).commands
    ensures ev.ConfigureNotify? || ev.MapNotify? || ev.UnmapNotify? || ev.MotionNotify? || ev.OtherEvent?
            ==> Step(v, s, area, ev).commands == []
  {
  }

  /** Drain the main window's queue in order. */
  function Drain(v: Variant, s: Vout, area: StreamArea, events: seq<WindowEvent>): (r: Stepped)
    ensures r.vout.fullscreen == s.fullscreen && r.vout.sizeChange == s.sizeChange
    ensures r.vout.window == s.window
    ensures r.vout.wmProtocols == s.wmProtocols && r.vout.wmDeleteWindow == s.wmDeleteWindow
    decreases |events|
  {
    if |events| == 0 then Stepped(s, [])
    else
      var first := Step(v, s, area, events[0]);
      var rest := Drain(v, first.vout, area, events[1..]);
      Stepped(rest.vout, first.commands + rest.commands)
  }

  /** Some key in the drained events asks for fullscreen. */
  predicate AsksFullscreen(area: StreamArea, events: seq<WindowEvent>)
  {
    exists i :: 0 <= i < |events| && events[i].KeyPress?
                && KeyCommands(events[i].sym, events[i].text, area).fullscreenRequest
  }

  /** The fullscreen flag is a flag, not a counter: after the drain it is
      pending exactly when it was pending before or some key asked for it,
      however many did. */
  lemma {:induction false} DrainFullscreenFlag(v: Variant, s: Vout, area: StreamArea, events: seq<WindowEvent>)
    ensures Drain(v, s, area, events).vout.fullscreenChange == (s.fullscreenChange || AsksFullscreen(area, events))
    decreases |events|
  {
    if |events| > 0 {
      var first := Step(v, s, area, events[0]);
      DrainFullscreenFlag(v, first.vout, area, events[1..]);
      if AsksFullscreen(area, events[1..]) {
        var i :| 0 <= i < |events[1..]| && events[1..][i].KeyPress?
                 && KeyCommands(events[1..][i].sym, events[1..][i].text, area).fullscreenRequest;
        assert events[i + 1] == events[1..][i];
      }
      if AsksFullscreen(area, events) && !(events[0].KeyPress? && KeyCommands(events[0].sym, events[0].text, area).fullscreenRequest) {
        var i :| 0 <= i < |events| && events[i].KeyPress?
                 && KeyCommands(events[i].sym, events[i].text, area).fullscreenRequest;
        assert events[1..][i - 1] == events[i];
      }
    }
  }

  /** Drain commands are the per-event commands, concatenated in order. */
  lemma DrainAppend(v: Variant, s: Vout, area: StreamArea, a: seq<WindowEvent>, b: seq<WindowEvent>)
    ensures var ra := Drain(v, s, area, a);
            var rb := Drain(v, ra.vout, area, b);
            Drain(v, s, area, a + b) == Stepped(rb.vout, ra.commands + rb.commands)
  {
    DrainAppendParts(v, s, area, a, b);
  }

  /** The state and the commands of draining a concatenation, separately. */
  lemma {:induction false} DrainAppendParts(v: Variant, s: Vout, area: StreamArea, a: seq<WindowEvent>, b: seq<WindowEvent>)
    ensures Drain(v, s, area, a + b).vout == Drain(v, Drain(v, s, area, a).vout, area, b).vout
    ensures Drain(v, s, area, a + b).commands
            == Drain(v, s, area, a).commands + Drain(v, Drain(v, s, area, a).vout, area, b).commands
    decreases |a|
  {
    if |a| == 0 {
      assert a + b == b;
    } else {
      var ab := a + b;
      assert ab[0] == a[0];
      assert ab[1..] == a[1..] + b;
      var first := Step(v, s, area, a[0]);
      DrainAppendParts(v, first.vout, area, a[1..], b);
      var ra' := Drain(v, first.vout, area, a[1..]);
      var rb := Drain(v, ra'.vout, area, b);
      assert first.commands + (ra'.commands + rb.commands) == (first.commands + ra'.commands) + rb.commands;
    }
  }

  /** Draining the window events asks to quit exactly when one of them is
      a quit key: no button, structure event or unknown event does. */
  lemma {:induction false} DrainQuit(v: Variant, s: Vout, area: StreamArea, events: seq<WindowEvent>)
    requires area.size >= 0
    ensures Die in Drain(v, s, area, events).commands <==>
              exists i :: 0 <= i < |events| && events[i].KeyPress? && QuitKey(events[i].sym, events[i].text)
    decreases |events|
  {
    if |events| > 0 {
      var e := events[0];
      var rest := events[1..];
      var first := Step(v, s, area, e);
      DrainQuit(v, first.vout, area, rest);
      assert Die in first.commands <==> e.KeyPress? && QuitKey(e.sym, e.text) by {
        StepCommands(v, s, area, e);
        if e.KeyPress? {
          KeyTable(e.sym, e.text, area);
        } else if e.ButtonPress? || e.ButtonRelease? {
          ButtonTable(v, s, area, e.button);
        }
      }
      if exists i :: 0 <= i < |rest| && rest[i].KeyPress? && QuitKey(rest[i].sym, rest[i].text) {
        var i :| 0 <= i < |rest| && rest[i].KeyPress? && QuitKey(rest[i].sym, rest[i].text);
        assert events[i + 1] == rest[i];
      }
      if exists i :: 0 <= i < |events| && events[i].KeyPress? && QuitKey(events[i].sym, events[i].text) {
        var i :| 0 <= i < |events| && events[i].KeyPress? && QuitKey(events[i].sym, events[i].text);
        if i > 0 {
          assert rest[i - 1] == events[i];
        }
      }
    }
  }

  /** Handling one event keeps the pointer flag and what the server shows
      in agreement. */
  lemma StepAgrees(v: Variant, s: Vout, area: StreamArea, ev: WindowEvent)
    requires Cursor.Agrees(s.cursor, s.shown)
    ensures var r := Step(v, s, area, ev).vout; Cursor.Agrees(r.cursor, r.shown)
  {
    if ev.MotionNotify? {
      Cursor.OperationsAgree(s.cursor, s.shown, ev.time);
    }
  }

  /** Handling events keeps the pointer flag and what the server shows in
      agreement. */
  lemma {:induction false} DrainAgrees(v: Variant, s: Vout, area: StreamArea, events: seq<WindowEvent>)
    requires Cursor.Agrees(s.cursor, s.shown)
    ensures var r := Drain(v, s, area, events).vout; Cursor.Agrees(r.cursor, r.shown)
    decreases |events|
  {
    if |events| > 0 {
      StepAgrees(v, s, area, events[0]);
      DrainAgrees(v, Step(v, s, area, events[0]).vout, area, events[1..]);
    }
  }

  /** The client-message drain: each WM_PROTOCOLS / WM_DELETE_WINDOW
      message asks to quit, any other is ignored. */
  function ClientCommands(s: Vout, messages: seq<ClientMessage>): (r: seq<Command>)
    ensures forall c :: c in r ==> c == Die
    ensures |r| <= |messages|
    decreases |messages|
  {
    if |messages| == 0 then []
    else
      var m := messages[0];
      (if m.messageType == s.wmProtocols && m.data0 == s.wmDeleteWindow then [Die] else [])
      + ClientCommands(s, messages[1..])
  }

  /** The client-message drain asks to quit exactly when some message is a
      window-manager delete request. */
  lemma {:induction false} ClientCommandsQuit(s: Vout, messages: seq<ClientMessage>)
    ensures Die in ClientCommands(s, messages) <==>
              exists i :: 0 <= i < |messages| && messages[i].messageType == s.wmProtocols
                          && messages[i].data0 == s.wmDeleteWindow
    decreases |messages|
  {
    if |messages| > 0 {
      ClientCommandsQuit(s, messages[1..]);
      var m := messages[0];
      var rest := messages[1..];
      if exists i :: 0 <= i < |rest| && rest[i].messageType == s.wmProtocols && rest[i].data0 == s.wmDeleteWindow {
        var i :| 0 <= i < |rest| && rest[i].messageType == s.wmProtocols && rest[i].data0 == s.wmDeleteWindow;
        assert messages[i + 1] == rest[i];
      }
      if exists i :: 0 <= i < |messages| && messages[i].messageType == s.wmProtocols && messages[i].data0 == s.wmDeleteWindow {
        var i :| 0 <= i < |messages| && messages[i].messageType == s.wmProtocols && messages[i].data0 == s.wmDeleteWindow;
        if i > 0 {
          assert rest[i - 1] == messages[i];
        }
      }
    }
  }

  /** What the rest of the cycle needs from outside: the stream position,
      the display and render geometry for a window re-creation, the id of a
      re-created window and the events its creation waits on, and the clock
      reading of the auto-hide check. */
  datatype Environment = Environment(area: StreamArea, display: Geometry.Size, render: Geometry.Size,
                                     aspect: nat, newWindow: int, handshake: seq<Window.ServerEvent>,
                                     now: int)

  /** Outcome of one cycle. After a window re-creation, `requested` is the
      size asked for and `handshakeUsed` the number of creation events the
      wait took; both are `None` and 0 when no window was re-created. */
  datatype Managed =
    | Managed(vout: Vout, commands: seq<Command>, requested: Option<Geometry.Size>, handshakeUsed: nat)
    | AwaitingWindow   // the re-created window's acknowledgements have not all arrived

  /** `vout_Manage`. The source's failure return after `CreateWindow`
      cannot be taken, since `CreateWindow` always returns 0; here the only
      outcome besides success is that the re-created window is still being
      waited for. */
  method ManageCycle(v: Variant, s: Vout, env: Environment, events: seq<WindowEvent>,
                     messages: seq<ClientMessage>)
    returns (r: Managed)
    requires s.fullscreen && Drain(v, s, env.area, events).vout.fullscreenChange ==> env.aspect > 0
    ensures var d := Drain(v, s, env.area, events);
            var toggles := d.vout.fullscreenChange;
            && (toggles && !Window.ReadyAfter(env.handshake, env.newWindow, |env.handshake|) <==> r.AwaitingWindow?)
            && (r.Managed? ==>
                  && r.commands == d.commands + ClientCommands(s, messages)
                  && r.vout.fullscreen == (s.fullscreen != toggles)
                  && !r.vout.fullscreenChange
                  && r.vout.sizeChange == (s.sizeChange && v == X11)
                  && r.vout.active == d.vout.active && r.vout.saver == d.vout.saver
                  && r.vout.wmProtocols == s.wmProtocols && r.vout.wmDeleteWindow == s.wmDeleteWindow
                  && (toggles <==> r.requested.Some?)
                  && (toggles ==> r.vout.window == env.newWindow
                                  && r.requested.value == Geometry.RequestedSize(r.vout.fullscreen, env.display,
                                                                                 env.render, env.aspect)
                                  && r.handshakeUsed <= |env.handshake|
                                  && Window.ReadyAfter(env.handshake, env.newWindow, r.handshakeUsed)
                                  && (forall n :: 0 <= n < r.handshakeUsed ==>
                                        !Window.ReadyAfter(env.handshake, env.newWindow, n))
                                  && r.vout.width == Window.LastConfigured(env.handshake, env.newWindow,
                                                                           r.handshakeUsed, r.requested.value).width
                                  && r.vout.height == Window.LastConfigured(env.handshake, env.newWindow,
                                                                            r.handshakeUsed, r.requested.value).height)
                  && (!toggles ==> r.vout.window == s.window && r.vout.width == d.vout.width
                                   && r.vout.height == d.vout.height && r.handshakeUsed == 0)
                  && r.vout.cursor.visible == (d.vout.cursor.visible
                                               && env.now - d.vout.cursor.lastMoved <= Cursor.HideDelay)
                  && r.vout.cursor.lastMoved == d.vout.cursor.lastMoved
                  && (Cursor.Agrees(s.cursor, s.shown) ==> Cursor.Agrees(r.vout.cursor, r.vout.shown)))
  {
    var d := Drain(v, s, env.area, events);
    var cur := d.vout;
    var commands := d.commands + ClientCommands(s, messages);
    var requested: Option<Geometry.Size> := None;
    var used := 0;
    if cur.fullscreenChange {
      cur := cur.(fullscreenChange := false, fullscreen := !cur.fullscreen);
      var created := Window.CreateWindow(v, cur.fullscreen, env.display, env.render, env.aspect,
                                         cur.cursor, env.newWindow, env.handshake);
      if created.None? {
        return AwaitingWindow;
      }
      var c := created.value;
      requested := Some(c.requested);
      used := c.consumed;
      cur := cur.(width := c.window.size.width, height := c.window.size.height,
                  window := c.window.id, cursor := c.cursor,
                  shown := Cursor.ShowAll(Cursor.DefaultPointer, c.cursorCalls));
    }
    if v == XVideo && cur.sizeChange {
      cur := cur.(sizeChange := false);
    }
    if Cursor.Agrees(s.cursor, s.shown) {
      DrainAgrees(v, s, env.area, events);
      Cursor.OperationsAgree(cur.cursor, cur.shown, env.now);
    }
    var idle := Cursor.Autohide(cur.cursor, env.now);
    cur := cur.(cursor := idle.cursor, shown := Cursor.ShowAll(cur.shown, idle.calls));
    return Managed(cur, commands, requested, used);
  }

  /** Two cycles, each with one fullscreen key and a window that comes up,
      give back the original mode, and the second window is requested at
      the size the original mode asks for. */
  method ToggleTwice(v: Variant, s: Vout, env1: Environment, env2: Environment, key: char)
    returns (r1: Managed, r2: Managed)
    requires env1.aspect > 0 && env2.aspect > 0
    requires env2.display == env1.display && env2.render == env1.render && env2.aspect == env1.aspect
    requires key == 'f' || key == 'F'
    requires !s.fullscreenChange
    requires Window.ReadyAfter(env1.handshake, env1.newWindow, |env1.handshake|)
    requires Window.ReadyAfter(env2.handshake, env2.newWindow, |env2.handshake|)
    ensures r1.Managed? && r2.Managed?
    ensures r1.vout.fullscreen == !s.fullscreen
    ensures r2.vout.fullscreen == s.fullscreen
    ensures r2.requested == Some(Geometry.RequestedSize(s.fullscreen, env1.display, env1.render, env1.aspect))
  {
    var press := [KeyPress(OtherKey(0), Some(key))];
    DrainFullscreenFlag(v, s, env1.area, press);
    r1 := ManageCycle(v, s, env1, press, []);
    DrainFullscreenFlag(v, r1.vout, env2.area, press);
    r2 := ManageCycle(v, r1.vout, env2, press, []);
  }

  /** `vout_Destroy`, as far as the driver state goes: a blanked pointer is
      shown again and the saved screen saver parameters are written back. */
  function Destroy(s: Vout): (r: Vout)
    ensures r.cursor.visible && r.saver.server == s.saver.saved
    ensures Cursor.Agrees(s.cursor, s.shown) ==> r.shown == Cursor.DefaultPointer
  {
    var t := Cursor.Restore(s.cursor);
    s.(cursor := t.cursor, shown := Cursor.ShowAll(s.shown, t.calls), saver := ScreenSaver.Enable(s.saver))
  }

  /** `vout_Create` disables the screen saver itself; a first MapNotify
      while the window is marked inactive disables it a second time, so the
      snapshot `vout_Destroy` writes back has the timeout already zeroed. */
  lemma CreateMapDestroyLosesTimeout(v: Variant, s: Vout, area: StreamArea, original: ScreenSaver.Settings)
    requires !s.active
    requires s.saver == ScreenSaver.Disable(v, ScreenSaver.Saver(original, s.saver.dpmsEnabled, s.saver.saved))
    ensures Destroy(Step(v, s, area, MapNotify).vout).saver.server == original.(timeout := 0)
  {
  }
}

=== FILE: picture.dfy ===
/** Direct picture buffers: the plane layout `NewPicture` publishes to the
    decoder, the allocation itself, and `FreePicture`. */
module Picture {
  import opened Common
  import opened Resources
  import opened Image

  /** One plane of a picture: where it starts in the image data, how many
      bytes it has and how many bytes one of its lines takes. */
  datatype Plane = Plane(offset: nat, bytes: nat, lineBytes: nat)
  {
    /** One past the last byte of the plane. */
    function End(): nat { offset + bytes }
  }

  /** The format `vout_Init` settles on for the output. */
  datatype OutputFormat = OutputFormat(chroma: Chroma, width: nat, height: nat, aspect: int)

  datatype Status = Free | Destroyed | OtherStatus(code: int)

  datatype Kind = Direct | OtherKind(code: int)

  datatype Margins = Margins(left: int, right: int, top: int, bottom: int)

  /** A picture slot of the video output thread: its status and type, its
      margins, the planes it publishes and the resources it holds. */
  datatype Slot = Slot(status: Status, kind: Kind, margins: Margins, planes: seq<Plane>,
                       held: set<Resource>)

  /** Planar 4:2:0 layout, in the plane order Y, U, V: a full luma plane,
      then V directly after it and U a quarter of the luma size further,
      both at half the luma stride. */
  function YuvPlanes(w: nat, h: nat): (p: seq<Plane>)
    ensures |p| == 3
  {
    [Plane(0, w * h, w), Plane(w * h * 5 / 4, w * h / 4, w / 2), Plane(w * h, w * h / 4, w / 2)]
  }

  /** Packed 16-bit RGB layout: one plane, two bytes per pixel. */
  function RgbPlanes(w: nat, h: nat): (p: seq<Plane>)
    ensures |p| == 1
  {
    [Plane(0, 2 * w * h, 2 * w)]
  }

  /** Layout `NewPicture` publishes for the chroma this build knows; None
      for every other chroma. */
  function Layout(v: Variant, fmt: OutputFormat): (r: Option<seq<Plane>>)
    ensures r.Some? <==> fmt.chroma == NativeChroma(v)
    ensures r.Some? && v == XVideo ==> |r.value| == 3
    ensures r.Some? && v == X11 ==> |r.value| == 1
  {
    if fmt.chroma != NativeChroma(v) then None
    else if v == XVideo then Some(YuvPlanes(fmt.width, fmt.height))
    else Some(RgbPlanes(fmt.width, fmt.height))
  }

  predicate Disjoint(a: Plane, b: Plane)
  {
    a.End() <= b.offset || b.End() <= a.offset
  }

  /** For even dimensions the three planes are pairwise disjoint, lie
      back to back in `3 * w * h / 2` bytes, and each holds exactly its
      lines: `w` bytes by `h` lines for luma, `w / 2` by `h / 2` for chroma. */
  lemma {:induction false} YuvPlanesTile(w: nat, h: nat)
    requires w % 2 == 0 && h % 2 == 0
    ensures var p := YuvPlanes(w, h);
            Disjoint(p[0], p[1]) && Disjoint(p[0], p[2]) && Disjoint(p[1], p[2])
            && p[0].offset == 0 && p[2].offset == p[0].End() && p[1].offset == p[2].End()
            && p[1].End() == 3 * w * h / 2
            && p[0].bytes == p[0].lineBytes * h
            && p[1].bytes == p[1].lineBytes * (h / 2)
            && p[2].bytes == p[2].lineBytes * (h / 2)
  {
    var a, b := w / 2, h / 2;
    assert w * h == 4 * (a * b);
    assert w * h / 4 == a * b;
    assert w * h * 5 / 4 == 5 * (a * b);
    assert 3 * w * h / 2 == 6 * (a * b);
  }

  /** A 64x64 picture: luma 4096 bytes, each chroma plane 1024 bytes. */
  lemma YuvPlanes64()
    ensures YuvPlanes(64, 64) == [Plane(0, 4096, 64), Plane(5120, 1024, 32), Plane(4096, 1024, 32)]
  {
  }

  /** The packed plane covers `h` lines of `2 * w` bytes, and fits in the
      `w * bytesPerPixel * h` bytes `CreateImage` allocates for the X11
      build exactly when the screen has at least two bytes per pixel: on an
      8-bit screen the published plane is twice the buffer. */
  lemma RgbPlaneFitsLocalImage(w: nat, h: nat, bytesPerPixel: nat)
    requires w > 0 && h > 0
    ensures RgbPlanes(w, h)[0].bytes == RgbPlanes(w, h)[0].lineBytes * h
    ensures RgbPlanes(w, h)[0].End() <= LocalImageLayout(X11, w, h, bytesPerPixel).dataBytes
            <==> bytesPerPixel >= 2
  {
    var n := w * h;
    assert n > 0;
    assert w * bytesPerPixel * h == bytesPerPixel * n;
    if bytesPerPixel >= 2 {
      assert bytesPerPixel * n >= 2 * n;
    } else {
      assert bytesPerPixel * n <= n;
    }
  }

  /** The planar layout fits in the `2 * w * h` bytes `CreateImage`
      allocates for the XVideo build. */
  lemma YuvPlanesFitLocalImage(w: nat, h: nat)
    requires w % 2 == 0 && h % 2 == 0
    ensures forall i :: 0 <= i < 3 ==>
              YuvPlanes(w, h)[i].End() <= LocalImageLayout(XVideo, w, h, 0).dataBytes
  {
    YuvPlanesTile(w, h);
  }

  /** Answers of the calls `NewPicture` makes: the descriptor allocation,
      then the image creation steps. */
  datatype PictureOracle = PictureOracle(sysOk: bool, image: Oracle)

  datatype Allocated = Allocated(ok: bool, slot: Slot, effects: seq<Effect>)

  /** `NewPicture`: an unknown chroma sets the plane count to zero and
      fails; otherwise allocate the descriptor, create a shared or local
      image, and publish the layout, freeing the descriptor when the image
      cannot be created. */
  function NewPicture(v: Variant, fmt: OutputFormat, shm: bool, o: PictureOracle, s: Slot): (r: Allocated)
    ensures r.ok <==> fmt.chroma == NativeChroma(v) && o.sysOk
                      && (if shm then CreateShmImage(o.image).ok else CreateLocalImage(o.image).ok)
    ensures fmt.chroma != NativeChroma(v) ==> r.slot == s.(planes := []) && r.effects == []
    ensures fmt.chroma == NativeChroma(v) && !r.ok ==> r.slot == s
    ensures r.ok ==> r.slot == s.(planes := Layout(v, fmt).value, held := Replay(s.held, r.effects))
  {
    match Layout(v, fmt)
    case None => Allocated(false, s.(planes := []), [])
    case Some(planes) =>
      if !o.sysOk then Allocated(false, s, [])
      else
        var b := if shm then CreateShmImage(o.image) else CreateLocalImage(o.image);
        if !b.ok then Allocated(false, s, [AllocSys] + b.effects + [FreeSys])
        else
          var effects := [AllocSys] + b.effects;
          Allocated(true, s.(planes := planes, held := Replay(s.held, effects)), effects)
  }

  /** Resources a successfully allocated picture holds. */
  function PictureResources(shm: bool): set<Resource>
  {
    if shm then {SysRecord} + ShmImageResources() else {SysRecord, LocalBuffer, ImageHandle}
  }

  /** A picture allocation never double-allocates and takes exactly the
      resources its image path needs; a failed one leaves the slot's
      resources as they were. */
  lemma NewPictureResources(v: Variant, fmt: OutputFormat, shm: bool, o: PictureOracle, s: Slot)
    requires s.held == {}
    ensures var r := NewPicture(v, fmt, shm, o, s);
            WellBracketed(s.held, r.effects)
            && Replay(s.held, r.effects) == (if r.ok then PictureResources(shm) else {})
  {
    var r := NewPicture(v, fmt, shm, o, s);
    if fmt.chroma == NativeChroma(v) && o.sysOk {
      var h1 := {SysRecord};
      assert Apply({}, AllocSys) == h1;
      assert ReplayOne: Replay({}, [AllocSys]) == h1 by {
        assert [AllocSys][1..] == [];
      }
      assert WellBracketed({}, [AllocSys]) by {
        assert [AllocSys][1..] == [];
      }
      var b := if shm then CreateShmImage(o.image) else CreateLocalImage(o.image);
      if shm { ShmUnwindComplete(h1, o.image); } else { LocalUnwindComplete(h1, o.image); }
      WellBracketedAppend({}, [AllocSys], b.effects);
      ReplayAppend({}, [AllocSys], b.effects);
      if !b.ok {
        assert Replay(h1, [FreeSys]) == {} && WellBracketed(h1, [FreeSys]) by {
          assert [FreeSys][1..] == [];
          assert Apply(h1, FreeSys) == {};
        }
        WellBracketedAppend({}, [AllocSys] + b.effects, [FreeSys]);
        ReplayAppend({}, [AllocSys] + b.effects, [FreeSys]);
      }
    }
  }

  /** `FreePicture` as the source writes it: on the shared path detach the
      segment from the server, mark it for removal and detach it from the
      process; then release the image with the build's `IMAGE_FREE` and
      free the descriptor. `XDestroyImage` on a local X11 image frees its
      data; the XVideo build's `XFree` frees the structure only. */
  function FreePictureEffects(v: Variant, shm: bool): (e: seq<Effect>)
    ensures |e| == if shm then 6 else 3
    ensures e[|e| - 1] == FreeSys
  {
    (if shm then [ServerDetach, ShmRemove, ShmDt] else [])
    + [Sync, DestroyImage(v == X11 && !shm), FreeSys]
  }

  /** The XVideo build's local path leaks: after a successful allocation
      and `FreePicture`, the data buffer malloc'd by `CreateImage` is still
      held, because `XFree` releases only the image structure. */
  lemma XVideoLocalBufferLeaks()
    ensures var held := PictureResources(false);
            Replay(held, FreePictureEffects(XVideo, false)) == {LocalBuffer}
  {
    var e := FreePictureEffects(XVideo, false);
    assert e == [Sync, DestroyImage(false), FreeSys];
    assert e[1..] == [DestroyImage(false), FreeSys];
    assert e[1..][1..] == [FreeSys];
    assert e[1..][1..][1..] == [];
  }

  /** What the source's `FreePicture` leaves behind of a successful
      allocation, for every build and path: nothing, except the local data
      buffer in the XVideo build without shared memory. */
  lemma FreePictureAsWrittenLeaves(v: Variant, shm: bool)
    ensures Replay(PictureResources(shm), FreePictureEffects(v, shm))
            == if v == XVideo && !shm then {LocalBuffer} else {}
  {
    if v == XVideo && !shm {
      XVideoLocalBufferLeaks();
    } else {
      FreePictureReleasesAll(v, shm);
    }
  }

  /** `FreePicture` with the local XVideo path corrected to free the image
      data before the structure; identical to the source everywhere else. */
  function FreePictureEffectsFixed(v: Variant, shm: bool): (e: seq<Effect>)
    ensures v == X11 || shm ==> e == FreePictureEffects(v, shm)
    ensures v == XVideo && !shm ==> FreeData in e && FreeData !in FreePictureEffects(v, shm)
  {
    if v == XVideo && !shm then [Sync, FreeData, DestroyImage(false), FreeSys]
    else FreePictureEffects(v, shm)
  }

  /** The corrected `FreePicture` undoes a successful `NewPicture` exactly:
      every resource is released once and nothing is left. */
  lemma FreePictureReleasesAll(v: Variant, shm: bool)
    ensures WellBracketed(PictureResources(shm), FreePictureEffectsFixed(v, shm))
    ensures Replay(PictureResources(shm), FreePictureEffectsFixed(v, shm)) == {}
  {
    var e := FreePictureEffectsFixed(v, shm);
    var h := PictureResources(shm);
    ReplayCons({SysRecord}, FreeSys, []);
    assert Apply({SysRecord}, FreeSys) == {};
    if shm {
      assert e == [ServerDetach] + ([ShmRemove] + ([ShmDt] + ([Sync] + ([DestroyImage(false)] + [FreeSys]))));
      var h1 := {SysRecord, ImageHandle, SegmentCreated, SegmentMapped};
      var h2 := {SysRecord, ImageHandle, SegmentMapped};
      var h3 := {SysRecord, ImageHandle};
      ReplayCons(h3, DestroyImage(false), [FreeSys]);
      assert Apply(h3, DestroyImage(false)) == {SysRecord};
      ReplayCons(h3, Sync, [DestroyImage(false)] + [FreeSys]);
      assert Apply(h3, Sync) == h3;
      ReplayCons(h2, ShmDt, [Sync] + ([DestroyImage(false)] + [FreeSys]));
      assert Apply(h2, ShmDt) == h3;
      ReplayCons(h1, ShmRemove, [ShmDt] + ([Sync] + ([DestroyImage(false)] + [FreeSys])));
      assert Apply(h1, ShmRemove) == h2;
      ReplayCons(h, ServerDetach, [ShmRemove] + ([ShmDt] + ([Sync] + ([DestroyImage(false)] + [FreeSys]))));
      assert Apply(h, ServerDetach) == h1;
    } else if v == X11 {
      assert e == [Sync] + ([DestroyImage(true)] + [FreeSys]);
      ReplayCons(h, DestroyImage(true), [FreeSys]);
      assert Apply(h, DestroyImage(true)) == {SysRecord};
      ReplayCons(h, Sync, [DestroyImage(true)] + [FreeSys]);
      assert Apply(h, Sync) == h;
    } else {
      assert e == [Sync] + ([FreeData] + ([DestroyImage(false)] + [FreeSys]));
      var h1 := {SysRecord, ImageHandle};
      ReplayCons(h1, DestroyImage(false), [FreeSys]);
      assert Apply(h1, DestroyImage(false)) == {SysRecord};
      ReplayCons(h, FreeData, [DestroyImage(false)] + [FreeSys]);
      assert Apply(h, FreeData) == h1;
      ReplayCons(h, Sync, [FreeData] + ([DestroyImage(false)] + [FreeSys]));
      assert Apply(h, Sync) == h;
    }
  }

  /** `FreePicture` (corrected on the local XVideo path): the slot gives
      back every resource a successful allocation gave it. */
  function FreePicture(v: Variant, shm: bool, s: Slot): (r: Slot)
    requires s.held == PictureResources(shm)
    ensures r.held == {}
    ensures r.status == s.status && r.kind == s.kind && r.planes == s.planes
  {
    FreePictureReleasesAll(v, shm);
    s.(held := Replay(s.held, FreePictureEffectsFixed(v, shm)))
  }
}

=== FILE: pool.dfy ===
/** The direct-buffer pool: `vout_Init` fills up to `MaxDirectBuffers` free
    picture slots with freshly allocated pictures, `vout_End` frees them
    again in reverse order. The slot array is a sequence; its length plays
    the part of the output thread's picture capacity. */
module Pool {
  import opened Common
  import opened Resources
  import opened Picture

  /** Lowest index of a free slot, if any. */
  function FirstFree(slots: seq<Slot>): (r: Option<nat>)
    ensures r.Some? ==> r.value < |slots| && slots[r.value].status == Free
                        && forall j :: 0 <= j < r.value ==> slots[j].status != Free
    ensures r.None? <==> forall j :: 0 <= j < |slots| ==> slots[j].status != Free
    decreases |slots|
  {
    if |slots| == 0 then None
    else if slots[0].status == Free then Some(0)
    else match FirstFree(slots[1..])
      case None => None
      case Some(i) => Some(i + 1)
  }

  /** The output format `vout_Init` settles on. The XVideo build passes the
      render format through when it is planar 4:2:0 and gives up (without
      error) otherwise; the X11 build always renders 16-bit RGB at the
      window size with square pixels. */
  function OutputFor(v: Variant, render: OutputFormat, windowWidth: nat, windowHeight: nat): (r: Option<OutputFormat>)
    requires v == X11 ==> windowHeight > 0
    ensures r.Some? ==> r.value.chroma == NativeChroma(v)
    ensures v == XVideo ==> (r.Some? <==> render.chroma == Yuv420) && (r.Some? ==> r.value == render)
    ensures v == X11 ==> r.Some? && r.value.width == windowWidth && r.value.height == windowHeight
                         && r.value.aspect * windowHeight <= windowWidth * AspectFactor
                         < (r.value.aspect + 1) * windowHeight
  {
    match v
    case XVideo => if render.chroma == Yuv420 then Some(render) else None
    case X11 => Some(OutputFormat(Rgb16, windowWidth, windowHeight, windowWidth * AspectFactor / windowHeight))
  }

  /** What a slot becomes once it holds a direct buffer. */
  function MarkDirect(s: Slot): Slot
  {
    s.(status := Destroyed, kind := Direct, margins := Margins(0, 0, 0, 0))
  }

  /** Every free slot holds no resources. */
  predicate FreeSlotsEmpty(slots: seq<Slot>)
  {
    forall i :: 0 <= i < |slots| && slots[i].status == Free ==> slots[i].held == {}
  }

  predicate Distinct(out: seq<nat>)
  {
    forall a, b :: 0 <= a < b < |out| ==> out[a] != out[b]
  }

  /** Every taken slot was free before and is never taken twice, later
      rounds never pass over a lower free slot. */
  predicate Lowest(slots: seq<Slot>, out: seq<nat>)
  {
    forall k, j :: 0 <= k < |out| && 0 <= j < out[k] && j < |slots| && slots[j].status == Free ==> j in out[..k]
  }

  /** The state `vout_Init` keeps between rounds: `cur` is `slots` with the
      slots listed in `out` (and only those) turned into direct buffers
      publishing `planes`. */
  predicate Taken(slots: seq<Slot>, cur: seq<Slot>, out: seq<nat>, planes: seq<Plane>, shm: bool)
  {
    && |cur| == |slots|
    && Distinct(out)
    && (forall k :: 0 <= k < |out| ==> out[k] < |slots| && slots[out[k]].status == Free)
    && (forall k :: 0 <= k < |out| ==>
          cur[out[k]] == MarkDirect(slots[out[k]]).(planes := planes, held := cur[out[k]].held))
    && (FreeSlotsEmpty(slots) ==> forall k :: 0 <= k < |out| ==> cur[out[k]].held == PictureResources(shm))
    && (forall i :: 0 <= i < |slots| && i !in out ==> cur[i] == slots[i])
    && Lowest(slots, out)
  }

  /** Appending the lowest free slot of `cur` keeps `Lowest`. */
  lemma LowestStep(slots: seq<Slot>, cur: seq<Slot>, out: seq<nat>, i: nat)
    requires |cur| == |slots|
    requires Lowest(slots, out)
    requires forall m :: 0 <= m < |slots| && m !in out ==> cur[m] == slots[m]
    requires FirstFree(cur) == Some(i)
    ensures Lowest(slots, out + [i])
  {
    var out' := out + [i];
    forall k, j | 0 <= k < |out'| && 0 <= j < out'[k] && j < |slots| && slots[j].status == Free
      ensures j in out'[..k]
    {
      if k < |out| {
        assert out'[..k] == out[..k];
      } else {
        assert out'[..k] == out;
        assert cur[j].status != Free;
      }
    }
  }

  /** The lowest free slot of the round state has not been taken yet and
      is still the slot the round started with. */
  lemma FreeNotTaken(slots: seq<Slot>, cur: seq<Slot>, out: seq<nat>, planes: seq<Plane>, shm: bool, i: nat)
    requires Taken(slots, cur, out, planes, shm)
    requires FirstFree(cur) == Some(i)
    ensures i < |slots| && i !in out && cur[i] == slots[i]
  {
  }

  /** Taking the lowest free slot keeps the round state. */
  lemma TakeLowest(slots: seq<Slot>, cur: seq<Slot>, out: seq<nat>, planes: seq<Plane>, shm: bool,
                   i: nat, h: set<Resource>)
    requires Taken(slots, cur, out, planes, shm)
    requires FirstFree(cur) == Some(i)
    requires FreeSlotsEmpty(slots) ==> h == PictureResources(shm)
    ensures Taken(slots, cur[i := MarkDirect(cur[i]).(planes := planes, held := h)], out + [i], planes, shm)
  {
    var cur' := cur[i := MarkDirect(cur[i]).(planes := planes, held := h)];
    var out' := out + [i];
    FreeNotTaken(slots, cur, out, planes, shm, i);
    LowestStep(slots, cur, out, i);
    forall a, b | 0 <= a < b < |out'|
      ensures out'[a] != out'[b]
    {
      if b < |out| {
        assert out'[a] == out[a] && out'[b] == out[b];
      } else {
        assert out'[a] == out[a] && out'[b] == i;
      }
    }
    forall k | 0 <= k < |out'|
      ensures out'[k] < |slots| && slots[out'[k]].status == Free
      ensures cur'[out'[k]] == MarkDirect(slots[out'[k]]).(planes := planes, held := cur'[out'[k]].held)
      ensures FreeSlotsEmpty(slots) ==> cur'[out'[k]].held == PictureResources(shm)
    {
      if k < |out| {
        assert out'[k] == out[k] && out[k] != i;
        assert cur'[out[k]] == cur[out[k]];
      } else {
        assert out'[k] == i;
      }
    }
    forall m | 0 <= m < |slots| && m !in out'
      ensures cur'[m] == slots[m]
    {
      assert m != i && m !in out;
    }
  }

  /** Every slot taken so far holds the picture its round's allocation
      produced, marked as a direct buffer. */
  predicate Allocated(v: Variant, f: OutputFormat, shm: bool, oracles: seq<PictureOracle>,
                      slots: seq<Slot>, cur: seq<Slot>, out: seq<nat>)
  {
    forall k :: 0 <= k < |out| ==>
      && k < |oracles| && out[k] < |slots| && out[k] < |cur|
      && NewPicture(v, f, shm, oracles[k], slots[out[k]]).ok
      && cur[out[k]] == MarkDirect(NewPicture(v, f, shm, oracles[k], slots[out[k]]).slot)
  }

  /** Recording one more successful allocation, in a slot not taken
      before, keeps the record of the earlier ones. */
  lemma AllocatedStep(v: Variant, f: OutputFormat, shm: bool, oracles: seq<PictureOracle>,
                      slots: seq<Slot>, cur: seq<Slot>, out: seq<nat>, i: nat)
    requires Allocated(v, f, shm, oracles, slots, cur, out)
    requires i < |slots| && i < |cur| && i !in out && cur[i] == slots[i]
    requires |out| < |oracles|
    requires NewPicture(v, f, shm, oracles[|out|], cur[i]).ok
    ensures Allocated(v, f, shm, oracles, slots,
                      cur[i := MarkDirect(NewPicture(v, f, shm, oracles[|out|], cur[i]).slot)], out + [i])
  {
    var cur' := cur[i := MarkDirect(NewPicture(v, f, shm, oracles[|out|], cur[i]).slot)];
    var out' := out + [i];
    forall k | 0 <= k < |out'|
      ensures && k < |oracles| && out'[k] < |slots| && out'[k] < |cur'|
              && NewPicture(v, f, shm, oracles[k], slots[out'[k]]).ok
              && cur'[out'[k]] == MarkDirect(NewPicture(v, f, shm, oracles[k], slots[out'[k]]).slot)
    {
      if k < |out| {
        assert out'[k] == out[k] && out[k] != i;
      } else {
        assert out'[k] == i;
      }
    }
  }

  /** One successful round of `vout_Init` keeps both the round state and
      the record of successful allocations. */
  lemma InitRound(v: Variant, f: OutputFormat, shm: bool, oracles: seq<PictureOracle>,
                  slots: seq<Slot>, cur: seq<Slot>, out: seq<nat>, i: nat)
    requires Layout(v, f).Some?
    requires Taken(slots, cur, out, Layout(v, f).value, shm)
    requires Allocated(v, f, shm, oracles, slots, cur, out)
    requires FirstFree(cur) == Some(i)
    requires |out| < |oracles|
    requires NewPicture(v, f, shm, oracles[|out|], cur[i]).ok
    ensures var cur' := cur[i := MarkDirect(NewPicture(v, f, shm, oracles[|out|], cur[i]).slot)];
            && Taken(slots, cur', out + [i], Layout(v, f).value, shm)
            && Allocated(v, f, shm, oracles, slots, cur', out + [i])
  {
    var planes := Layout(v, f).value;
    var r := NewPicture(v, f, shm, oracles[|out|], cur[i]);
    FreeNotTaken(slots, cur, out, planes, shm, i);
    if FreeSlotsEmpty(slots) {
      NewPictureResources(v, f, shm, oracles[|out|], cur[i]);
    }
    assert MarkDirect(r.slot) == MarkDirect(cur[i]).(planes := planes, held := r.slot.held);
    TakeLowest(slots, cur, out, planes, shm, i, r.slot.held);
    AllocatedStep(v, f, shm, oracles, slots, cur, out, i);
  }

  /** `vout_Init`. Each round takes the lowest-index free slot and
      allocates a picture in it with the next oracle answer; the loop stops
      silently at the limit, when no slot is free, or when an allocation
      fails, and the result code is always 0. `out` lists the slots taken,
      in order of allocation. */
  method Init(v: Variant, render: OutputFormat, windowWidth: nat, windowHeight: nat, shm: bool,
              slots: seq<Slot>, oracles: seq<PictureOracle>)
    returns (slots': seq<Slot>, out: seq<nat>, fmt: Option<OutputFormat>, rc: int)
    requires v == X11 ==> windowHeight > 0
    requires |oracles| >= MaxDirectBuffers(v)
    ensures rc == 0
    ensures fmt == OutputFor(v, render, windowWidth, windowHeight)
    ensures fmt.None? ==> out == [] && slots' == slots
    ensures |out| <= MaxDirectBuffers(v)
    ensures fmt.Some? ==> Taken(slots, slots', out, Layout(v, fmt.value).value, shm)
    ensures fmt.Some? ==> forall k :: 0 <= k < |out| ==>
              && NewPicture(v, fmt.value, shm, oracles[k], slots[out[k]]).ok
              && slots'[out[k]] == MarkDirect(NewPicture(v, fmt.value, shm, oracles[k], slots[out[k]]).slot)
    ensures fmt.Some? && |out| < MaxDirectBuffers(v) ==>
              FirstFree(slots').None?
              || !NewPicture(v, fmt.value, shm, oracles[|out|], slots'[FirstFree(slots').value]).ok
  {
    rc := 0;
    out := [];
    slots' := slots;
    fmt := OutputFor(v, render, windowWidth, windowHeight);
    if fmt.None? {
      return;
    }
    var f := fmt.value;
    var planes := Layout(v, f).value;
    while |out| < MaxDirectBuffers(v)
      invariant |out| <= MaxDirectBuffers(v)
      invariant Taken(slots, slots', out, planes, shm)
      invariant Allocated(v, f, shm, oracles, slots, slots', out)
    {
      var idx := FirstFree(slots');
      if idx.None? {
        break;
      }
      var i := idx.value;
      var r := NewPicture(v, f, shm, oracles[|out|], slots'[i]);
      if !r.ok {
        break;
      }
      InitRound(v, f, shm, oracles, slots, slots', out, i);
      slots' := slots'[i := MarkDirect(r.slot)];
      out := out + [i];
    }
  }

  /** `vout_End`: free the pictures `vout_Init` recorded, last allocated
      first. `freed` is the order in which slots are released. */
  method End(v: Variant, shm: bool, slots: seq<Slot>, out: seq<nat>)
    returns (slots': seq<Slot>, freed: seq<nat>)
    requires Distinct(out)
    requires forall k :: 0 <= k < |out| ==> out[k] < |slots| && slots[out[k]].held == PictureResources(shm)
    ensures |slots'| == |slots|
    ensures |freed| == |out|
    ensures forall k :: 0 <= k < |out| ==> freed[k] == out[|out| - 1 - k]
    ensures forall k :: 0 <= k < |out| ==>
              slots'[out[k]] == slots[out[k]].(held := {})
    ensures forall i :: 0 <= i < |slots| && i !in out ==> slots'[i] == slots[i]
  {
    slots' := slots;
    freed := [];
    var i := |out|;
    while i > 0
      invariant 0 <= i <= |out|
      invariant |slots'| == |slots|
      invariant |freed| == |out| - i
      invariant forall k :: 0 <= k < |freed| ==> freed[k] == out[|out| - 1 - k]
      invariant forall k :: i <= k < |out| ==> slots'[out[k]] == slots[out[k]].(held := {})
      invariant forall k :: 0 <= k < i ==> slots'[out[k]] == slots[out[k]]
      invariant forall j :: 0 <= j < |slots| && j !in out ==> slots'[j] == slots[j]
    {
      i := i - 1;
      slots' := slots'[out[i] := FreePicture(v, shm, slots'[out[i]])];
      freed := freed + [out[i]];
    }
  }

  /** `vout_Init` then `vout_End`: every slot `vout_Init` took is back to
      holding nothing, and with free slots holding nothing to begin with,
      no slot holds a resource afterwards that it did not hold before. */
  method InitThenEnd(v: Variant, render: OutputFormat, windowWidth: nat, windowHeight: nat, shm: bool,
                     slots: seq<Slot>, oracles: seq<PictureOracle>)
    returns (final: seq<Slot>, out: seq<nat>)
    requires v == X11 ==> windowHeight > 0
    requires |oracles| >= MaxDirectBuffers(v)
    requires FreeSlotsEmpty(slots)
    ensures |final| == |slots|
    ensures |out| <= MaxDirectBuffers(v)
    ensures forall k :: 0 <= k < |out| ==> out[k] < |slots|
    ensures forall i :: 0 <= i < |slots| ==> final[i].held == slots[i].held
    ensures forall i :: 0 <= i < |slots| && i !in out ==> final[i] == slots[i]
    ensures forall k :: 0 <= k < |out| ==> final[out[k]].status == Destroyed
  {
    var mid, fmt, rc;
    mid, out, fmt, rc := Init(v, render, windowWidth, windowHeight, shm, slots, oracles);
    var freed;
    final, freed := End(v, shm, mid, out);
    forall i | 0 <= i < |slots|
      ensures final[i].held == slots[i].held
    {
      if i in out {
        var k :| 0 <= k < |out| && out[k] == i;
        assert slots[i].status == Free;
      }
    }
  }
}

=== FILE: resources.dfy ===
/** The resources a picture buffer holds, and the calls that acquire and
    release them. The calls are the driver's only contact with Xlib, the
    shared-memory extension and SysV shared memory; here each is an effect
    with a meaning on the set of held resources. */
module Resources {

  datatype Resource =
    | SysRecord        // the malloc'd per-picture descriptor
    | LocalBuffer      // the malloc'd pixel data of a non-shared image
    | ImageHandle      // the XImage / XvImage structure
    | SegmentCreated   // the SysV segment from shmget
    | SegmentMapped    // the segment attached to this process by shmat
    | ServerAttached   // the segment attached to the server by XShmAttach

  datatype Effect =
    | AllocSys                      // malloc of the descriptor
    | FreeSys                       // free of the descriptor
    | AllocData                     // malloc of local pixel data
    | FreeData                      // free of local pixel data
    | CreateImage                   // X(v)(Shm)CreateImage
    | DestroyImage(withData: bool)  // XDestroyImage (frees data too) or XFree (structure only)
    | ShmGet                        // shmget(IPC_PRIVATE, ...)
    | ShmRemove                     // shmctl(IPC_RMID)
    | ShmAt                         // shmat
    | ShmDt                         // shmdt
    | ServerAttach                  // XShmAttach
    | ServerDetach                  // XShmDetach
    | Sync                          // XSync, no resource

  /** Resources an effect takes. */
  function Acquires(e: Effect): set<Resource>
  {
    match e
    case AllocSys => {SysRecord}
    case AllocData => {LocalBuffer}
    case CreateImage => {ImageHandle}
    case ShmGet => {SegmentCreated}
    case ShmAt => {SegmentMapped}
    case ServerAttach => {ServerAttached}
    case _ => {}
  }

  /** Resources an effect gives back. */
  function Releases(e: Effect): set<Resource>
  {
    match e
    case FreeSys => {SysRecord}
    case FreeData => {LocalBuffer}
    case DestroyImage(withData) => if withData then {ImageHandle, LocalBuffer} else {ImageHandle}
    case ShmRemove => {SegmentCreated}
    case ShmDt => {SegmentMapped}
    case ServerDetach => {ServerAttached}
    case _ => {}
  }

  /** Held resources after one effect. */
  function Apply(held: set<Resource>, e: Effect): set<Resource>
  {
    (held - Releases(e)) + Acquires(e)
  }

  /** Held resources after a sequence of effects, in order. */
  function Replay(held: set<Resource>, effects: seq<Effect>): set<Resource>
    decreases |effects|
  {
    if |effects| == 0 then held else Replay(Apply(held, effects[0]), effects[1..])
  }

  /** Every effect acquires only what is not held yet and releases only
      what is held: no double allocation, no double free. */
  predicate WellBracketed(held: set<Resource>, effects: seq<Effect>)
    decreases |effects|
  {
    |effects| == 0
    || (Acquires(effects[0]) !! held
        && Releases(effects[0]) <= held
        && WellBracketed(Apply(held, effects[0]), effects[1..]))
  }

  /** One effect in front of the rest: replay and bracketing take one step. */
  lemma ReplayCons(held: set<Resource>, e: Effect, rest: seq<Effect>)
    ensures Replay(held, [e] + rest) == Replay(Apply(held, e), rest)
    ensures WellBracketed(held, [e] + rest) <==>
              Acquires(e) !! held && Releases(e) <= held && WellBracketed(Apply(held, e), rest)
  {
    assert ([e] + rest)[0] == e;
    assert ([e] + rest)[1..] == rest;
  }

  /** Replaying a concatenation replays the parts in turn. */
  lemma {:induction false} ReplayAppend(held: set<Resource>, a: seq<Effect>, b: seq<Effect>)
    ensures Replay(held, a + b) == Replay(Replay(held, a), b)
    decreases |a|
  {
    if |a| == 0 {
      assert a + b == b;
    } else {
      assert (a + b)[1..] == a[1..] + b;
      ReplayAppend(Apply(held, a[0]), a[1..], b);
    }
  }

  /** A concatenation is well bracketed when both parts are, the second
      starting from what the first leaves held. `WellBracketedSplit` is the
      converse. */
  lemma {:induction false} WellBracketedAppend(held: set<Resource>, a: seq<Effect>, b: seq<Effect>)
    requires WellBracketed(held, a)
    requires WellBracketed(Replay(held, a), b)
    ensures WellBracketed(held, a + b)
    decreases |a|
  {
    if |a| == 0 {
      assert a + b == b;
    } else {
      assert (a + b)[1..] == a[1..] + b;
      WellBracketedAppend(Apply(held, a[0]), a[1..], b);
    }
  }

  /** A well-bracketed concatenation splits into a well-bracketed first
      part and a second part well bracketed from what the first leaves. */
  lemma {:induction false} WellBracketedSplit(held: set<Resource>, a: seq<Effect>, b: seq<Effect>)
    requires WellBracketed(held, a + b)
    ensures WellBracketed(held, a)
    ensures WellBracketed(Replay(held, a), b)
    decreases |a|
  {
    if |a| == 0 {
      assert a + b == b;
    } else {
      assert (a + b)[0] == a[0];
      assert (a + b)[1..] == a[1..] + b;
      WellBracketedSplit(Apply(held, a[0]), a[1..], b);
    }
  }
}

=== FILE: screensaver.dfy ===
/** Screen saver suppression. `DisableXScreenSaver` saves the server's four
    screen saver parameters and sets the timeout to zero (and, in the
    XVideo build, switches DPMS off); `EnableXScreenSaver` writes the saved
    parameters back. There is one saved copy, not a counter. */
module ScreenSaver {
  import opened Common

  datatype Settings = Settings(timeout: int, interval: int, blanking: int, exposure: int)

  /** The server's current parameters and DPMS switch, and the driver's
      saved copy. */
  datatype Saver = Saver(server: Settings, dpmsEnabled: bool, saved: Settings)

  /** `DisableXScreenSaver`. */
  function Disable(v: Variant, s: Saver): (r: Saver)
    ensures r.saved == s.server
    ensures r.server == s.server.(timeout := 0)
    ensures r.dpmsEnabled == (s.dpmsEnabled && v == X11)
  {
    Saver(s.server.(timeout := 0), if v == XVideo then false else s.dpmsEnabled, s.server)
  }

  /** `EnableXScreenSaver`. */
  function Enable(s: Saver): (r: Saver)
    ensures r.server == s.saved && r.saved == s.saved && r.dpmsEnabled == s.dpmsEnabled
  {
    s.(server := s.saved)
  }

  /** Disable then Enable gives the server back its parameters; the DPMS
      switch the XVideo build turned off stays off. */
  lemma DisableEnableRestores(v: Variant, s: Saver)
    ensures Enable(Disable(v, s)).server == s.server
    ensures Enable(Disable(v, s)).dpmsEnabled == (s.dpmsEnabled && v == X11)
  {
  }

  /** Without a counter a second Disable saves the already zeroed timeout,
      so Disable, Disable, Enable leaves the screen saver off. */
  lemma DoubleDisableLosesTimeout(v: Variant, s: Saver)
    ensures Enable(Disable(v, Disable(v, s))).server == s.server.(timeout := 0)
  {
  }
}

=== FILE: seek.dfy ===
/** Relative seeking: the position a keyboard or wheel seek asks the input
    thread to move to. */
module Seek {

  /** The part of the selected stream area the driver reads when seeking:
      the current byte position, the area bounds and the mux rate (bytes
      per fiftieth of a second). */
  datatype StreamArea = StreamArea(tell: int, start: int, size: int, muxRate: int)

  /** Unclamped target of a seek by `seconds`. */
  function RawTarget(area: StreamArea, seconds: int): int
  {
    area.tell + seconds * 50 * area.muxRate
  }

  /** Clamp as the driver writes it: at or below zero goes to zero (not to
      the area start), at or beyond the size goes to the size. */
  function Clamp(t: int, size: int): (r: int)
    ensures t <= 0 ==> r == 0
    ensures 0 < t < size ==> r == t
    ensures 0 < t && size <= t ==> r == size
  {
    if t <= 0 then 0
    else if t >= size then size
    else t
  }

  /** Position `vout_Seek(seconds)` hands to `input_Seek`. */
  function SeekTarget(area: StreamArea, seconds: int): (r: int)
    ensures area.size >= 0 ==> 0 <= r <= area.size
    ensures 0 < RawTarget(area, seconds) < area.size ==> r == RawTarget(area, seconds)
  {
    Clamp(RawTarget(area, seconds), area.size)
  }

  /** The clamp lands in [0, size] whenever the size is non-negative, and a
      target already in that range is kept: clamping twice is clamping once. */
  lemma ClampIdempotent(t: int, size: int)
    requires size >= 0
    ensures 0 <= Clamp(t, size) <= size
    ensures Clamp(Clamp(t, size), size) == Clamp(t, size)
  {
  }

  /** Seeking is monotone: a longer seek never lands before a shorter one
      (the mux rate is a rate, so it is non-negative). */
  lemma SeekMonotone(area: StreamArea, a: int, b: int)
    requires area.muxRate >= 0 && area.size >= 0
    requires a <= b
    ensures SeekTarget(area, a) <= SeekTarget(area, b)
  {
    assert a * 50 * area.muxRate <= b * 50 * area.muxRate by {
      assert (b - a) * (50 * area.muxRate) >= 0;
    }
  }

  /** The lower bound is zero, not the area start: with a start beyond zero
      a long backward seek still lands before the start. */
  lemma SeekIgnoresStart()
    ensures SeekTarget(StreamArea(100, 40, 1000, 1), -5) == 0
    ensures SeekTarget(StreamArea(100, 40, 1000, 1), -5) < 40
  {
  }
}

=== FILE: window.dfy ===
/** Main window creation (`CreateWindow`): the size requested from the
    server, the wait until the server has exposed, mapped and configured
    the window, and the cursor re-blanking on the new window. The blocking
    event wait runs over a given finite event sequence; running out of
    events means the real driver would still be waiting. */
module Window {
  import opened Common
  import opened Geometry
  import Cursor

  datatype EventKind = Expose | MapNotify | ConfigureNotify(size: Size) | Unrelated

  /** An event as `XNextEvent` returns it: its kind and the window it is for. */
  datatype ServerEvent = ServerEvent(kind: EventKind, window: int)

  predicate HasExpose(events: seq<ServerEvent>, win: int, n: nat)
    requires n <= |events|
  {
    exists i :: 0 <= i < n && events[i].window == win && events[i].kind.Expose?
  }

  predicate HasMap(events: seq<ServerEvent>, win: int, n: nat)
    requires n <= |events|
  {
    exists i :: 0 <= i < n && events[i].window == win && events[i].kind.MapNotify?
  }

  predicate HasConfigure(events: seq<ServerEvent>, win: int, n: nat)
    requires n <= |events|
  {
    exists i :: 0 <= i < n && events[i].window == win && events[i].kind.ConfigureNotify?
  }

  /** The first `n` events carry all three acknowledgements for `win`. */
  predicate ReadyAfter(events: seq<ServerEvent>, win: int, n: nat)
    requires n <= |events|
  {
    HasExpose(events, win, n) && HasMap(events, win, n) && HasConfigure(events, win, n)
  }

  /** Size carried by the last ConfigureNotify for `win` among the first
      `n` events, or `initial` if there is none. */
  function LastConfigured(events: seq<ServerEvent>, win: int, n: nat, initial: Size): Size
    requires n <= |events|
  {
    if n == 0 then initial
    else if events[n - 1].window == win && events[n - 1].kind.ConfigureNotify? then events[n - 1].kind.size
    else LastConfigured(events, win, n - 1, initial)
  }

  /** The wait loop of `CreateWindow`: take events one at a time, noting
      Expose, MapNotify and ConfigureNotify for the new window (the last
      ConfigureNotify gives the window size), until all three have been
      seen. `consumed` events are taken; `ready` is false when the sequence
      ends first. */
  method AwaitReady(events: seq<ServerEvent>, win: int, initial: Size)
    returns (ready: bool, consumed: nat, size: Size)
    ensures consumed <= |events|
    ensures ready <==> ReadyAfter(events, win, |events|)
    ensures ready ==> ReadyAfter(events, win, consumed)
                      && forall n :: 0 <= n < consumed ==> !ReadyAfter(events, win, n)
    ensures !ready ==> consumed == |events|
    ensures size == LastConfigured(events, win, consumed, initial)
  {
    var expose, configure, mapped := false, false, false;
    consumed := 0;
    size := initial;
    while !(expose && configure && mapped) && consumed < |events|
      invariant consumed <= |events|
      invariant expose == HasExpose(events, win, consumed)
      invariant mapped == HasMap(events, win, consumed)
      invariant configure == HasConfigure(events, win, consumed)
      invariant forall n :: 0 <= n < consumed ==> !ReadyAfter(events, win, n)
      invariant size == LastConfigured(events, win, consumed, initial)
    {
      var ev := events[consumed];
      if ev.kind.Expose? && ev.window == win {
        expose := true;
      } else if ev.kind.MapNotify? && ev.window == win {
        mapped := true;
      } else if ev.kind.ConfigureNotify? && ev.window == win {
        configure := true;
        size := ev.kind.size;
      }
      consumed := consumed + 1;
    }
    ready := expose && configure && mapped;
    if !ready {
      assert !ReadyAfter(events, win, |events|);
    } else {
      ReadyMonotone(events, win, consumed, |events|);
    }
  }

  lemma ReadyMonotone(events: seq<ServerEvent>, win: int, n: nat, m: nat)
    requires n <= m <= |events|
    requires ReadyAfter(events, win, n)
    ensures ReadyAfter(events, win, m)
  {
  }

  /** A new main window: its server id, its size, and whether the XVideo
      overlay sub-window was created inside it. */
  datatype MainWindow = MainWindow(id: int, size: Size, overlay: bool)

  datatype Created = Created(window: MainWindow, requested: Size, cursor: Cursor.CursorState,
                             cursorCalls: seq<Cursor.CursorCall>, consumed: nat)

  /** `CreateWindow`: request the fullscreen or aspect-derived size, wait
      for the three acknowledgements, take the size from the last
      ConfigureNotify, add the overlay sub-window in the XVideo build and
      re-blank a hidden pointer. The source has no failure return; `None`
      here means the wait has not finished within the given events. */
  method CreateWindow(v: Variant, fullscreen: bool, display: Size, render: Size, aspect: nat,
                      cursor: Cursor.CursorState, win: int, events: seq<ServerEvent>)
    returns (r: Option<Created>)
    requires !fullscreen ==> aspect > 0
    ensures r.Some? <==> ReadyAfter(events, win, |events|)
    ensures r.Some? ==>
              && r.value.requested == RequestedSize(fullscreen, display, render, aspect)
              && r.value.window.id == win
              && r.value.window.overlay == (v == XVideo)
              && r.value.cursor == cursor
              && Cursor.Agrees(r.value.cursor, Cursor.ShowAll(Cursor.DefaultPointer, r.value.cursorCalls))
              && r.value.consumed <= |events|
              && ReadyAfter(events, win, r.value.consumed)
              && (forall n :: 0 <= n < r.value.consumed ==> !ReadyAfter(events, win, n))
              && r.value.window.size == LastConfigured(events, win, r.value.consumed, r.value.requested)
  {
    var requested := RequestedSize(fullscreen, display, render, aspect);
    var ready, consumed, size := AwaitReady(events, win, requested);
    if !ready {
      return None;
    }
    var t := Cursor.Reapply(cursor);
    Cursor.ReapplyAgrees(cursor);
    return Some(Created(MainWindow(win, size, v == XVideo), requested, t.cursor, t.calls, consumed));
  }

  /** When every ConfigureNotify for the window repeats the requested
      size, the window ends up at the requested size. */
  lemma {:induction false} HonouredRequest(events: seq<ServerEvent>, win: int, n: nat, requested: Size)
    requires n <= |events|
    requires forall i :: 0 <= i < |events| && events[i].window == win && events[i].kind.ConfigureNotify? ==>
               events[i].kind.size == requested
    ensures LastConfigured(events, win, n, requested) == requested
  {
    if n > 0 {
      HonouredRequest(events, win, n - 1, requested);
    }
  }
}
